=== FILE: README.md ===
# ToolsService tool dispatch, modelled in Dafny

This project models the tool-dispatch core of the Kotlin `ToolsService` client. The client connects a chat model to tool servers that speak the Model Context Protocol. It has five parts:

- **Registry and agent loop** (`ToolsService`, `tools_service.dfy`):
  - connections are registered under `"<clientName>/v<clientVersion>"` in an insertion-ordered map;
  - a tool name is resolved across all connections, and the last match wins;
  - the call's argument keys are compared with the schema's `required` list by comparing their `toString` renderings;
  - the retry loop asks the chat model for a tool call until one succeeds. It counts turns without a call and resets the count after any refused call.
- **Server connection** (`ToolsServerConnection`, `tools_server_connection.dfy`):
  - the text extraction of a tool result, and the fixed unescaped `tool_result` text handed to the model;
  - the three catalogs (tools, prompts, resources), each absent or a list;
  - the refusal of an empty server at connect time;
  - the canonical tool definitions;
  - the argument default of a tool call.
- **Schema translation** (`ToolAdapter`, `tool_adapter.dfy`): from the server dialect to the canonical tool definition, then to the chat model's function tool, whose parameters always say `type: "object"`.
- **Transport** (`Transport`, `transport.dfy`):
  - the launch command derived from the script suffix;
  - the set-once channel cell, with its lazy getter and strict setter;
  - `init` and `close` of the Stdio and Sse variants, with an event trace of their effects.
- **Conversation builder** (`PromptBuilder`, `prompt_builder.dfy`): append-only messages and tool definitions, and `build`.

Two supporting modules:

- `Wrappers` (`wrappers.dfy`): `Option` and `Result`. A `Result` failure stands for an exception the Kotlin code throws.
- `JsonValues` (`json.dfy`): a JSON tree with Kotlin's `toString` rendering. That rendering gives `[a, b]` for lists, `{k=v}` for maps, strings without quotes, and `null`.

The outside world is passed in as parameters:

- A tool server's answers to the handshake and the three listings are a `ServerAnswers` value per registry key.
- A tool call's outcome comes from a function of (registry key, tool name, arguments).
- The chat model is a finite sequence of responses, so the loop always terminates. Running out of responses is its own exit.
- The operating system is a boolean.
- Whether `ProcessBuilder(command).start()` starts a process is a `Launcher` predicate on the command.
- Processes and channels are numbered, and their effects are recorded in a trace.

Three behaviours of the code worth knowing:

- A call naming an unknown tool does not end the loop. `callTool` returns `false`, and the loop resets `attempts` to 0 and asks again, exactly as it does for a key mismatch (ToolsService.kt:65-67, 104-108).
- The key comparison is neither a set comparison nor order-free. It compares the rendered texts `"[[a, b]]"` and `"[" + required.toString() + "]"`. It is therefore order-sensitive, and it can be fooled by names that contain `", "` (`ToolsService.RenderingCollisions`).
- When the budget is exhausted, the conversation returned is the caller's builder, which by then also holds every registered tool definition (ToolsService.kt:90, 112).

## Model

| member | source | states |
|---|---|---|
| Transport.SubstringAfterLast | src/main/kotlin/Transport.kt:31 | The result is the dot-free tail of the path after its last dot, or the whole path when there is no dot. |
| Transport.Command | src/main/kotlin/Transport.kt:29-45 | `js` runs under node, `py` under python or python3 by OS, `jar` under `java -jar`, and anything else under the single token `docker run -i --rm`. The path is always last, so the command has 2 or 3 elements. |
| Transport.CommandForScript | src/main/kotlin/Transport.kt:29-45 | A `.js` server script, as the tests start one, launches as `["node", path]`. |
| Transport.CommandForPython | src/main/kotlin/Transport.kt:33-39 | A `.py` script runs under `python` on Windows and `python3` elsewhere. |
| Transport.CommandForJar | src/main/kotlin/Transport.kt:40 | A `.jar` runs as `java -jar path`. |
| Transport.CommandFallback | src/main/kotlin/Transport.kt:31-43 | Only the suffix after the last dot counts, so `a.tar.gz` gets the docker fallback. |
| Transport.CommandWithoutDot | src/main/kotlin/Transport.kt:31-43 | A dot-less name other than `js`, `py` or `jar` is its own suffix and launches as `["docker run -i --rm", name]`. |
| Transport.NewStdio | src/main/kotlin/Transport.kt:24-45 | A new Stdio transport has its derived command, no channel, no process and an empty trace. |
| Transport.NewSse | src/main/kotlin/Transport.kt:62-65 | A new Sse transport holds its URL and no channel. |
| Transport.SetTransport | src/main/kotlin/Transport.kt:18-23 | The setter fails with "already initialized" exactly when a channel is stored, and otherwise stores the channel and changes nothing else. |
| Transport.Init | src/main/kotlin/Transport.kt:47-55 | Stdio starts a process and opens a channel only when there is no process, and then records exactly those two events in order. It fails with a start failure exactly when it has to start one and the command does not start. Sse opens and stores a new channel, recording that one event, and fails exactly when one is already stored. |
| Transport.Get | src/main/kotlin/Transport.kt:16-17 | The getter returns the stored channel unchanged, or calls `init` and returns the channel it stored. It fails exactly when it has to initialise a Stdio transport whose command does not start. |
| Transport.Close | src/main/kotlin/Transport.kt:57-60 | Stdio destroys its process and then closes the channel. The channel is reached through the getter, so an uninitialised Stdio transport is initialised first, and closing fails exactly when that start fails. A stored channel is always the one closed. |
| Transport.StdioInitIdempotent | src/main/kotlin/Transport.kt:47-55 | A second Stdio `init` returns the same channel and state as the first. |
| Transport.SseSecondInitFails | src/main/kotlin/Transport.kt:66-69 | The first Sse `init` succeeds exactly on an empty cell, and the second one fails with "already initialized". |
| Transport.GetThenInit | src/main/kotlin/Transport.kt:16-23 | After the lazy getter has stored a channel, a strict Sse `init` fails, and a Stdio `init` returns the getter's channel. |
| Transport.GetMemoised | src/main/kotlin/Transport.kt:16-17 | Asking the getter twice gives the same channel and the same state. |
| Transport.StoredChannelNeverChanges | src/main/kotlin/Transport.kt:15-23 | Once a channel is stored, the setter refuses, and `init`, the getter and `close` all keep that channel. |
| Transport.CloseUninitialisedStdio | src/main/kotlin/Transport.kt:57-60 | Closing a fresh Stdio transport fails exactly when its command does not start. Otherwise it starts a process, opens a channel and closes it, and never destroys that new process. |
| Transport.FallbackNeverStarts | src/main/kotlin/Transport.kt:41-49 | The docker fallback is a single token containing spaces. A launcher that knows only space-free program names refuses it, so `init` of such a transport fails. |
| PromptBuilder.AddTool | src/main/kotlin/PromptBuilder.kt:19-22 | One definition is appended at the end. The messages are unchanged, and the old definitions are a prefix. |
| PromptBuilder.AppendUserMessage | src/main/kotlin/PromptBuilder.kt:23-28 | Exactly one user message is appended at the end. Earlier messages and the tools are unchanged. |
| PromptBuilder.AppendSystemMessage | src/main/kotlin/PromptBuilder.kt:29-34 | Exactly one system message is appended at the end. Earlier messages and the tools are unchanged. |
| PromptBuilder.AppendToolMessage | src/main/kotlin/PromptBuilder.kt:35-41 | Exactly one tool message is appended, carrying the given call id and the possibly null content. |
| PromptBuilder.ChatTools | src/main/kotlin/PromptBuilder.kt:44 | Every definition is converted in order. The list succeeds exactly when each conversion does, and then has one tool per definition. |
| PromptBuilder.Build | src/main/kotlin/PromptBuilder.kt:42-46 | Returns the messages as inserted and exactly the converted chat tools, one per definition and in order, with each tool's name and description kept. The builder is a value and is not changed. |
| PromptBuilder.BuildPrefix | src/main/kotlin/PromptBuilder.kt:42-46 | Building a builder and building any append-only extension of it agree on the earlier messages and tools. |
| PromptBuilder.OpeningConversation | src/test/kotlin/ToolsServiceTest.kt:15-17 | The tests' opening conversation is a system message followed by a user message, in that order. |
| JsonValues.JoinInjective | src/main/kotlin/ToolsService.kt:55-57 | Joining with `", "` is injective on non-empty, comma-free names. This is the condition under which the rendered key comparison is list equality. |
| JsonValues.JoinLength | src/main/kotlin/ToolsServerConnection.kt:24 | A join is as long as its parts together plus one separator between each two. |
| JsonValues.Show | src/main/kotlin/ToolsService.kt:55-56 | The `toString` rendering: null is `null`, a string is itself without quotes, a list sits between `[` and `]`, and a map between `{` and `}`. |
| JsonValues.Lookup | src/main/kotlin/ToolAdapter.kt:35-72 | Reading a key from an object is absent exactly when no field has the key. Otherwise it gives the value of the first field with that key. |
| JsonValues.AsMapSnoc | src/main/kotlin/ToolAdapter.kt:39 | Reading an object as a map is a sequence of `put`s: a later entry overrides an earlier one with the same key. |
| JsonValues.AsMapHolds | src/main/kotlin/ToolAdapter.kt:39 | When the keys are distinct, reading an object as a Kotlin map keeps every entry's value under its key. |
| ToolAdapter.ServerToolToToolDefinition | src/main/kotlin/ToolAdapter.kt:22-32 | Keeps the name and description, and the schema has exactly the keys `type`, `properties` and `required`. It fails (`!!`) exactly when `required` is absent from the additional properties. |
| ToolAdapter.ConvertField | src/main/kotlin/ToolAdapter.kt:46-56 | An `enum` list becomes an array of its entries' string forms, in order. Every other value, including a list under another key, becomes its string form. |
| ToolAdapter.ConvertProperty | src/main/kotlin/ToolAdapter.kt:45-58 | Every field of a property is converted in place, keeping its key and position. |
| ToolAdapter.ConvertProperties | src/main/kotlin/ToolAdapter.kt:41-61 | Every map-valued property appears converted under its own name, and every entry of the result is such a converted property. Nothing else appears. |
| ToolAdapter.ConvertPropertiesAppend | src/main/kotlin/ToolAdapter.kt:42-60 | Properties are converted one by one in order: converting a concatenation is concatenating the conversions. |
| ToolAdapter.ConvertPropertiesOne | src/main/kotlin/ToolAdapter.kt:43-59 | A single map-valued property becomes exactly its converted self, and any other entry is dropped. |
| ToolAdapter.BuildToolParameters | src/main/kotlin/ToolAdapter.kt:34-73 | `type` is always `"object"`. `properties` is present exactly when the input's is a map, and then holds the converted properties. `required` is present exactly when the input's is a list, and is copied. No other key appears, and no key appears twice. The build fails exactly when `required` holds an entry that is neither a string nor null. A null entry passes the cast and is copied. |
| ToolAdapter.ToolDefinitionToChatTool | src/main/kotlin/ToolAdapter.kt:12-20 | A function-type tool that keeps the name and description and whose parameters are exactly the built parameters. It fails exactly when building them fails. |
| ToolAdapter.ConvertPropertiesIdempotent | src/main/kotlin/ToolAdapter.kt:39-62 | Converting the properties of already-converted properties changes nothing. |
| ToolAdapter.BuildToolParametersNormalForm | src/main/kotlin/ToolAdapter.kt:34-73 | Built parameters are a fixed point: reading them back as a schema and building again gives the same object. |
| ToolAdapter.ParamsFieldsLookup | src/main/kotlin/ToolAdapter.kt:35-72 | The built object has at most three entries: `type` is `"object"`, and `properties` and `required` are present exactly when they were built. |
| ToolAdapter.ParamsFieldsKeys | src/main/kotlin/ToolAdapter.kt:35-72 | The built object's keys are distinct and each is `type`, `properties` or `required`. |
| ToolAdapter.NullRequiredEntryKept | src/main/kotlin/ToolAdapter.kt:64-70 | A `required` list holding null builds `{"type": "object", "required": [null]}`, with no failure. |
| ToolAdapter.ParamsFieldsAsMap | src/main/kotlin/ToolAdapter.kt:39-66 | Reading built parameters back as a map finds `properties` and `required` exactly when they were built, with the built values. |
| ToolAdapter.RebuildParams | src/main/kotlin/ToolAdapter.kt:34-73 | Parameters holding converted properties and a list of string names build again to themselves. |
| ToolAdapter.TypeIsAlwaysObject | src/main/kotlin/ToolAdapter.kt:36 | The declared type of the input schema has no effect on the parameters. |
| ToolAdapter.RequiredNamesReachChatTool | src/main/kotlin/ToolAdapter.kt:26-30 | A server tool's `required` names reach the chat tool's `required` array unchanged and in order. |
| ToolsServerConnection.PartTexts | src/main/kotlin/ToolsServerConnection.kt:24 | Each part gives its text, with a null text read as `""`. Any non-text part is a cast failure. |
| ToolsServerConnection.ExtractText | src/main/kotlin/ToolsServerConnection.kt:23-26 | A null result gives null. Otherwise the part texts are joined with newlines. |
| ToolsServerConnection.ExtractTextLength | src/main/kotlin/ToolsServerConnection.kt:23-26 | The extracted text is as long as the part texts together plus one newline between each two. |
| ToolsServerConnection.ExtractTextForLLM | src/main/kotlin/ToolsServerConnection.kt:28-32 | Never null: the fixed `tool_result` text, holding the name and the joined text unescaped, with the literal `null` for a null result. |
| ToolsServerConnection.ToolResultJson | src/main/kotlin/ToolsServerConnection.kt:30 | The text opens with the fixed `{"type": "tool_result","tool_name": "` followed by the tool name and ends with `"}`. It is 52 characters longer than the name and the result together, because nothing is escaped. |
| ToolsServerConnection.ParseToolResult | src/main/kotlin/ToolsServerConnection.kt:30 | Any text it reads back is exactly the `tool_result` text of the field it returns. |
| ToolsServerConnection.ToolResultRoundTrip | src/main/kotlin/ToolsServerConnection.kt:30 | The result field is recovered exactly from the formatted text, whatever it contains. |
| ToolsServerConnection.ExtractTextForLLMExample | src/test/kotlin/ToolsServerConnectionTest.kt:66-73 | An `add` result with text "5" extracts to "5", and the model text is exactly `{"type": "tool_result","tool_name": "add","result": "5"}`. |
| ToolsServerConnection.ExtractTextJoins | src/main/kotlin/ToolsServerConnection.kt:23-26 | Parts `a`, null and `b` join to `"a\n\nb"`, and an image part makes extraction fail. |
| ToolsServerConnection.NewConnection | src/main/kotlin/ToolsServerConnection.kt:21-46 | A new connection has its transport and all three catalogs absent. A missing client name is `default-client` and a missing version `1.0.0`. |
| ToolsServerConnection.Catalog | src/main/kotlin/ToolsServerConnection.kt:74-86 | A listing that raised leaves the catalog absent. A successful one leaves the list, with a null list read as empty. |
| ToolsServerConnection.ToServerTool | src/main/kotlin/ToolsServerConnection.kt:56-63 | `required` always goes into the additional properties (JSON null when the server gave none), and a missing description gets the fixed default. |
| ToolsServerConnection.SetServerTools | src/main/kotlin/ToolsServerConnection.kt:51-72 | The tool catalog is absent exactly when listing raised, and otherwise is the converted tools in server order. The other catalogs are untouched. |
| ToolsServerConnection.SetServerPrompts | src/main/kotlin/ToolsServerConnection.kt:73-87 | Only the prompt catalog changes. It is absent on failure and otherwise the listed prompts. |
| ToolsServerConnection.SetServerResources | src/main/kotlin/ToolsServerConnection.kt:88-103 | Only the resource catalog changes. It is absent on failure and otherwise the listed resources. |
| ToolsServerConnection.Connect | src/main/kotlin/ToolsServerConnection.kt:104-113 | Fails exactly when the transport cannot start its process, the handshake fails, or all three catalogs are absent or empty. On success, each catalog is set independently from its own listing. |
| ToolsServerConnection.CatalogDegradation | src/main/kotlin/ToolsServerConnection.kt:104-113 | A failed prompt listing costs only the prompt catalog, and the connection still succeeds. |
| ToolsServerConnection.EmptyListingsRejected | src/main/kotlin/ToolsServerConnection.kt:110-112 | Empty and absent catalogs together are refused as an empty server. |
| ToolsServerConnection.Disconnect | src/main/kotlin/ToolsServerConnection.kt:114-116 | Disconnecting closes the transport, fails exactly when closing does, and leaves the catalogs as they were. |
| ToolsServerConnection.ToolDefinitions | src/main/kotlin/ToolsServerConnection.kt:49 | One canonical definition per tool, in order. Fails exactly when some tool lacks `required`. |
| ToolsServerConnection.GetToolDefinitions | src/main/kotlin/ToolsServerConnection.kt:48-50 | Absent exactly when the tool catalog is absent. Otherwise one definition per tool, in catalog order. |
| ToolsServerConnection.ListedToolsConvert | src/main/kotlin/ToolsServerConnection.kt:51-72 | Tools stored by the tool setter always carry `required`, so their conversion never fails and keeps their names, order and `required` values. |
| ToolsServerConnection.ConnectedToolsConvert | src/main/kotlin/ToolsServerConnection.kt:104-113 | After a successful connect, getting the tool definitions never fails. |
| ToolsServerConnection.CallTool | src/main/kotlin/ToolsServerConnection.kt:117-120 | The server is asked with the given arguments, or an empty map for null ones. Its answer is returned, or its exception propagated. |
| ToolsServerConnection.NullArgumentsAreEmpty | src/main/kotlin/ToolsServerConnection.kt:118 | Null arguments and an empty argument map are the same call. |
| ToolsService.KeysOf | src/main/kotlin/ToolsService.kt:18 | The registry's keys in iteration order. |
| ToolsService.IndexOfKey | src/main/kotlin/ToolsService.kt:24 | Finds the position holding a key, and is absent exactly when the key is not registered. |
| ToolsService.Put | src/main/kotlin/ToolsService.kt:24 | A map `put`: an existing key keeps its position and takes the new connection, and a new key is appended. Keys stay distinct. |
| ToolsService.Register | src/main/kotlin/ToolsService.kt:23-25 | Keys are distinct, and the registry is no larger than the connection list. |
| ToolsService.RegisterValid | src/main/kotlin/ToolsService.kt:23-25 | The registry holds only given connections, so well-formed transports stay well formed. |
| ToolsService.RegisterKeepsKeys | src/main/kotlin/ToolsService.kt:23-25 | Every given connection's `"<name>/v<version>"` key is registered. |
| ToolsService.RegisterHasKey | src/main/kotlin/ToolsService.kt:23-25 | The key of the connection at any position of the list is registered. |
| ToolsService.PutKeepsKey | src/main/kotlin/ToolsService.kt:24 | A `put` registers its key and loses none of the keys already there. |
| ToolsService.RegisterKeepsLast | src/main/kotlin/ToolsService.kt:23-25 | Every entry sits under its connection's key and holds the last connection given with that key. |
| ToolsService.LastWithKeyIsMember | src/main/kotlin/ToolsService.kt:23-25 | The connection kept for a key is one of the given connections. |
| ToolsService.RegisterOne | src/main/kotlin/ToolsService.kt:31-34 | The single-connection constructor registers the same as the list constructor given a one-element list. |
| ToolsService.ReRegistrationKeepsPosition | src/main/kotlin/ToolsService.kt:23-25 | Registering a1, b, a2, where a1 and a2 share a key, keeps a2 in a1's first place, so b is iterated last. |
| ToolsService.DefaultIdentitiesCollide | src/main/kotlin/ToolsService.kt:23-25 | Two connections built without a name or version share the key `default-client/v1.0.0`, so only the second one is registered. |
| ToolsService.RegistryKeyAmbiguous | src/main/kotlin/ToolsService.kt:24 | The key is not injective: (`a/v1`, `2`) and (`a`, `1/v2`) are different identities with the same key `a/v1/v2`. |
| ToolsService.ConnectEntry | src/main/kotlin/ToolsService.kt:28 | Connects one registered connection with the answers for its key, and keeps the key. |
| ToolsService.ConnectAll | src/main/kotlin/ToolsService.kt:27-29 | Connects every registered connection in registry order. Succeeds exactly when each does, and then holds each connected connection in place. |
| ToolsService.NewService | src/main/kotlin/ToolsService.kt:21-30 | The constructor registers, then connects all. It succeeds exactly when every connection does, and then holds exactly the connected registry. The retry budget is the given one, or 5 when none is given. |
| ToolsService.TwoDefaultServersKeepSecond | src/test/kotlin/ToolsServiceTest.kt:70-79 | A service over two servers that both keep the default identity talks only to the second one, with the default budget of 5. |
| ToolsService.CandidatesOf | src/main/kotlin/ToolsService.kt:45 | One candidate per definition of a connection, in order. |
| ToolsService.Candidates | src/main/kotlin/ToolsService.kt:44-51 | Every definition of every connection in registry order. Succeeds exactly when every connection's definitions can be read. |
| ToolsService.CandidatesOne | src/main/kotlin/ToolsService.kt:44-51 | A single connection offers exactly its own definitions, in their order, and the scan fails exactly when they cannot be read. |
| ToolsService.LastMatch | src/main/kotlin/ToolsService.kt:41-53 | The reference resolution: the index of a candidate with the name and none after it, or none at all. |
| ToolsService.FindToolsConnection | src/main/kotlin/ToolsService.kt:41-53 | The nested overwriting scan returns exactly the reference resolution: the connection and schema of the last matching definition, or null. |
| ToolsService.LastMatchOrAppend | src/main/kotlin/ToolsService.kt:44-51 | Over a concatenation, a match in the second part overrides one in the first. |
| ToolsService.ScanDefsIsLastMatch | src/main/kotlin/ToolsService.kt:45-49 | The inner overwriting loop over one connection's definitions equals the reference. |
| ToolsService.ScanIsLastMatch | src/main/kotlin/ToolsService.kt:44-51 | The outer loop over the registry equals the reference, and fails exactly when some connection's definitions cannot be read. |
| ToolsService.ResolutionCharacterised | src/main/kotlin/ToolsService.kt:41-53 | Resolution finds nothing exactly when no connection offers the name, and otherwise picks a matching candidate with no match after it. |
| ToolsService.LastConnectionWins | src/main/kotlin/ToolsService.kt:41-53 | When the last registered connection offers the name among any number of tools, resolution picks that connection, with the schema of its last definition of that name, whatever the earlier connections offer. |
| ToolsService.CandidatesSplit | src/main/kotlin/ToolsService.kt:44-51 | The candidates of a split registry are the two parts' candidates concatenated. |
| ToolsService.ShowStrArray | src/main/kotlin/ToolsService.kt:55 | A list of names renders as `[` + the names joined by `", "` + `]`. |
| ToolsService.RenderCallKeys | src/main/kotlin/ToolsService.kt:55 | The argument keys render as `[[` + the keys joined by `", "` + `]]`. |
| ToolsService.RenderRequired | src/main/kotlin/ToolsService.kt:56 | A missing or null `required` renders as `[null]`, and a list renders between double brackets. |
| ToolsService.ParamsMatch | src/main/kotlin/ToolsService.kt:54-59 | Passes only when `required` is present and not null. Argument keys that are exactly the `required` list, in the same order, always pass. |
| ToolsService.MatchIsListEquality | src/main/kotlin/ToolsService.kt:54-59 | For non-empty, comma-free names, the comparison passes exactly when the key list equals the `required` list, order included. |
| ToolsService.RenderingCollisions | src/main/kotlin/ToolsService.kt:54-59 | The text comparison is not list equality: the single key `"a, b"` passes for `["a", "b"]`, and no keys pass for `[""]`. |
| ToolsService.MissingKeyRejected | src/main/kotlin/ToolsService.kt:54-59 | Keys `{a, b}` against required `[a, b, c]` are rejected. |
| ToolsService.RequestText | src/main/kotlin/ToolsService.kt:74 | The request line reads `[ Calling tool `, then the tool name, then ` with args `, then the rendered arguments, and closes with ` ]`. |
| ToolsService.CallTool | src/main/kotlin/ToolsService.kt:60-80 | An unknown tool or mismatched keys return the prompt unchanged with `false`. A resolved call with matching keys succeeds exactly when the server returns and its result is all text, and then returns `true`, having appended exactly two tool messages with the call id: the request text, then the `extractTextForLLM` text of the server's result. A raising server gives the invocation error, and a non-text result gives the cast error. The tool list is unchanged. |
| ToolsService.CalledResultReadsBack | src/main/kotlin/ToolsService.kt:76-78 | The last message of a successful call reads back as the text the tool server returned. |
| ToolsService.AddAll | src/main/kotlin/ToolsService.kt:83-86 | The definitions are appended in order after the existing ones, and the messages are unchanged. |
| ToolsService.DefsOfCandidates | src/main/kotlin/ToolsService.kt:81-88 | The definitions behind one connection's candidates followed by others are its definitions followed by theirs. |
| ToolsService.AddToolsToPrompt | src/main/kotlin/ToolsService.kt:81-88 | Appends every connection's definitions in registry order and leaves the messages unchanged. |
| ToolsService.Gather | src/main/kotlin/ToolsService.kt:118-135 | Everything in a non-null catalog is in the result, and everything in the result comes from a non-null catalog. A single catalog gathers to exactly its list, or nothing when it is absent. |
| ToolsService.GatherAppend | src/main/kotlin/ToolsService.kt:118-135 | Gathering respects catalog order: gathering a concatenation is concatenating the gatherings. |
| ToolsService.LoadPrompts | src/main/kotlin/ToolsService.kt:118-126 | Holds exactly the prompts of the connections whose prompt catalog is present. For one connection it is exactly that connection's prompt list. |
| ToolsService.FetchResources | src/main/kotlin/ToolsService.kt:127-135 | Holds exactly the resources of the connections whose resource catalog is present. For one connection it is exactly that connection's resource list. |
| ToolsService.LoadPromptsInRegistryOrder | src/main/kotlin/ToolsService.kt:118-126 | Prompts come out grouped by connection, in registry order. |
| ToolsService.FetchResourcesInRegistryOrder | src/main/kotlin/ToolsService.kt:127-135 | Resources come out grouped by connection, in registry order. |
| ToolsService.FirstToolCall | src/main/kotlin/ToolsService.kt:95-96 | Only the first tool call of the first choice counts, and only when it is a function call. An exception or an empty choice list propagates. |
| ToolsService.Turn | src/main/kotlin/ToolsService.kt:95-109 | A turn first builds the request, and a build failure raises that error. Otherwise it has exactly one of four outcomes: no tool call, a refused call, an exception (the query's or the call's, as raised), or an accepted call whose prompt the loop returns. |
| ToolsService.NoCallStep | src/main/kotlin/ToolsService.kt:97-100 | A turn without a tool call adds one attempt, and the turns so far stay unresolved. |
| ToolsService.RefusedStep | src/main/kotlin/ToolsService.kt:103-109 | A refused call resets the attempts to zero, and the turns so far stay unresolved. |
| ToolsService.CounterIsAttempts | src/main/kotlin/ToolsService.kt:93-109 | The counter the loop keeps turn by turn matches the declarative reading: the last `a` turns had no call, and the turn before them was a refused call. |
| ToolsService.CounterUnique | src/main/kotlin/ToolsService.kt:93-109 | The declarative reading determines the counter, because a refused call is never a turn without a call. |
| ToolsService.UnresolvedBefore | src/main/kotlin/ToolsService.kt:95-109 | Every turn before an unresolved point built its request and had no tool call or a refused call. |
| ToolsService.StayedBelowBefore | src/main/kotlin/ToolsService.kt:93 | The loop condition `attempts < retry` held before every turn the loop reached. |
| ToolsService.AskUntilCalled | src/main/kotlin/ToolsService.kt:92-115 | With a budget of zero or less it never asks and returns the prompt unchanged. With a positive budget and a conversation that does not build, the first query raises the build error. Otherwise the loop stops at the first turn the code stops at, because the attempt counter stayed below the budget before every turn it reached. It stops there on an accepted call, on that turn's own exception, or on the counter reaching the budget, with the prompt unchanged. Otherwise it runs out of responses. |
| ToolsService.UpdateWithToolCall | src/main/kotlin/ToolsService.kt:89-117 | Fails with the missing-`required` error when the tools cannot be added. Otherwise the exits are those of the loop over the conversation with the tools added: a budget of zero or less returns it at once, a build failure raises at once, and each other exit is the first turn where the code stops, with a failure carrying that turn's exception. On exhaustion the counter equals the budget. |
| ToolsService.AttemptsWithoutCalls | src/main/kotlin/ToolsService.kt:97-100 | With no tool calls, the counter after n turns is n. |
| ToolsService.AttemptsWithRefusals | src/main/kotlin/ToolsService.kt:103-109 | With only refused calls, the counter stays at zero. |
| ToolsService.NeverCalledExhausts | src/main/kotlin/ToolsService.kt:89-112 | When the conversation with the tools builds, a model that never proposes a tool is asked exactly `retry` times, and the prompt comes back with only the tools added. |
| ToolsService.RefusedCallsNeverExhaust | src/main/kotlin/ToolsService.kt:103-109 | When the conversation with the tools builds, a model that keeps proposing a refused call never exhausts the budget. Only running out of responses ends the loop. |
| ToolsService.ZeroBudgetNeverAsks | src/main/kotlin/ToolsService.kt:89-112 | With a budget of zero or less, the conversation comes back with only the tools added, whatever the responses and even when it does not build. |
| ToolsService.UnbuildableToolsRaise | src/main/kotlin/LLMHostConnection.kt:36-48 | When the conversation with the tools does not build, the first query raises the build error before the model answers, whatever the responses. |
| ToolsService.NonStringRequiredRaises | src/main/kotlin/ToolAdapter.kt:64-70 | A tool whose `required` list holds a number makes the first query fail the cast, so the loop raises instead of asking. |

## Left out

- Console logging (`println`) is left out. It has no effect on results.
- The exception re-throw in `updateWithToolCall` is left out. An exception is a `Result` failure that propagates unchanged: the loop fails with the raising turn's own error.
- The chat model client (`LLMHostConnection.kt`, `LLMChatConnection.kt`, `LLMEmbeddingConnection.kt`, `LLMConnection.kt`) is not part of this model. It becomes a finite sequence of responses. The one part of it kept is that `query` builds the request (`prompt.build()`) before it sends anything, so a build failure raises before a response is read.
- The protocol SDK, its handshake and its `listTools`/`listPrompts`/`listResources`/`callTool` RPCs are replaced by oracle answers.
- Process spawning is reduced to a `Launcher` predicate that says whether a command starts. The process's streams, the SSE/HTTP client and `runBlocking` are replaced by numbered channels and processes and an event trace. The reason a start fails is not modelled, only that it fails.
- `JsonValues.Json`: numbers are integers. Fractional numbers, and their Kotlin rendering such as `0.5` or a `Double` 5 as `5.0` when `ConvertField` stringifies a schema value, are not modelled.
- ToolDefinition.kt is not part of this model. A tool definition is a record of name, description and schema map.
- The model does not parse tool-call arguments (`Json.parseToJsonElement`). They arrive already parsed as an ordered list of fields, and a parse error would simply propagate.
- The `os.name` property is not read. It is a boolean parameter of `Transport.Command`.
- Kotlin's mutable builder is not modelled. `callTool` appends the request message before calling the tool, so a tool that raises leaves that message in the caller's builder. In the model the failure carries no builder.
- The SDK's JSON wrapper types are treated as plain JSON. In the code, `inputSchema["properties"] as? Map` and `inputSchema["required"] as? List` are applied to SDK `JsonValue` wrappers. `ToolAdapter.BuildToolParameters` treats an object as a map and an array as a list.
- `ToolAdapter.ServerToolToToolDefinition`: the description is taken as the stored string. The code's `.toString()` on the SDK accessor's return value is not modelled.
- `ToolsService.RequestText`: the arguments render through `Show`, so only arguments that are numbers, booleans or null render as the code renders them. The code interpolates a `Map<String, JsonElement>`. The map itself prints in the `{k=v}` form, but every value is printed by kotlinx's `JsonElement.toString()`, which is compact JSON: a string comes out quoted, an array as `[1,2]` and an object as `{"k":1}`. `Show` prints a string without quotes, an array as `[1, 2]` and an object as `{k=1}`.
- `ToolsService.UpdateWithToolCall`: the retry budget is an unbounded integer, and a budget of zero or less never asks the model. Kotlin's 32-bit `Int` wrap-around is not reachable with a finite response list.

=== FILE: json.dfy ===
/**
  The JSON-like value trees the client passes around (tool schemas, tool-call
  arguments), and their string form as Kotlin's `toString` renders maps, lists,
  strings and numbers: `[a, b]`, `{k=v}`, strings without quotes, `null`.
 */
module JsonValues {
  import opened Wrappers

  datatype Json =
    | JNull
    | JBool(b: bool)
    | JNum(n: int)
    | JStr(s: string)
    | JArr(items: seq<Json>)
    | JObj(fields: seq<Field>)

  /** One entry of an object; objects keep their insertion order. */
  datatype Field = Field(key: string, value: Json)

  function Keys(fields: seq<Field>): (ks: seq<string>)
    ensures |ks| == |fields|
    ensures forall i :: 0 <= i < |fields| ==> ks[i] == fields[i].key
  {
    seq(|fields|, i requires 0 <= i < |fields| => fields[i].key)
  }

  /** A list of strings as a JSON array of strings. */
  function StrArray(ss: seq<string>): (j: Json)
    ensures j.JArr? && |j.items| == |ss|
    ensures forall i :: 0 <= i < |ss| ==> j.items[i] == JStr(ss[i])
  {
    JArr(seq(|ss|, i requires 0 <= i < |ss| => JStr(ss[i])))
  }

  predicate AllStrings(items: seq<Json>) {
    forall i :: 0 <= i < |items| ==> items[i].JStr?
  }

  /** The value stored under `key` in an object's entries, the first one if repeated. */
  function Lookup(fields: seq<Field>, key: string): (r: Option<Json>)
    ensures r.None? <==> forall i :: 0 <= i < |fields| ==> fields[i].key != key
    ensures r.Some? ==> exists i :: 0 <= i < |fields| && fields[i] == Field(key, r.value) && FirstWithKey(fields, key, i)
  {
    if |fields| == 0 then None
    else if fields[0].key == key then
      assert FirstWithKey(fields, key, 0);
      Some(fields[0].value)
    else
      var r := Lookup(fields[1..], key);
      assert forall i :: 1 <= i < |fields| ==> fields[i] == fields[1..][i - 1];
      LookupTail(fields, key, r);
      r
  }

  /** A first occurrence in the tail, behind a head with another key, is a first occurrence. */
  lemma LookupTail(fields: seq<Field>, key: string, r: Option<Json>)
    requires |fields| > 0 && fields[0].key != key
    requires r.Some? ==>
      exists i :: 0 <= i < |fields| - 1 && fields[1..][i] == Field(key, r.value) && FirstWithKey(fields[1..], key, i)
    ensures r.Some? ==> exists i :: 0 <= i < |fields| && fields[i] == Field(key, r.value) && FirstWithKey(fields, key, i)
  {
    if r.Some? {
      var i :| 0 <= i < |fields| - 1 && fields[1..][i] == Field(key, r.value) && FirstWithKey(fields[1..], key, i);
      assert fields[i + 1] == fields[1..][i];
      assert FirstWithKey(fields, key, i + 1);
    }
  }

  /** Position `i` holds the first entry with `key`. */
  predicate FirstWithKey(fields: seq<Field>, key: string, i: nat) {
    i < |fields| && fields[i].key == key && forall j :: 0 <= j < i ==> fields[j].key != key
  }

  /** An object's entries as a Kotlin map: a later entry with the same key wins. */
  function AsMap(fields: seq<Field>): map<string, Json> {
    if |fields| == 0 then map[]
    else AsMap(fields[..|fields| - 1])[fields[|fields| - 1].key := fields[|fields| - 1].value]
  }

  /** Appending an entry puts its value under its key, over any earlier one. */
  lemma AsMapSnoc(fields: seq<Field>, f: Field)
    ensures AsMap(fields + [f]) == AsMap(fields)[f.key := f.value]
  {
    assert (fields + [f])[..|fields|] == fields;
  }

  /** Kotlin's `joinToString(sep)`. */
  function Join(parts: seq<string>, sep: string): string {
    if |parts| == 0 then ""
    else if |parts| == 1 then parts[0]
    else parts[0] + sep + Join(parts[1..], sep)
  }

  /** The total length of the parts. */
  function SumLengths(parts: seq<string>): nat {
    if |parts| == 0 then 0 else |parts[0]| + SumLengths(parts[1..])
  }

  /** A join is as long as its parts plus one separator between each two. */
  lemma {:induction false} JoinLength(parts: seq<string>, sep: string)
    requires |parts| > 0
    ensures |Join(parts, sep)| == SumLengths(parts) + (|parts| - 1) * |sep|
  {
    if |parts| > 1 {
      JoinLength(parts[1..], sep);
    }
  }

  function DigitChar(d: nat): char
    requires d < 10
  {
    "0123456789"[d]
  }

  function NatToString(n: nat): string
    decreases n
  {
    if n < 10 then [DigitChar(n)] else NatToString(n / 10) + [DigitChar(n % 10)]
  }

  function IntToString(i: int): string {
    if i < 0 then "-" + NatToString(-i) else NatToString(i)
  }

  /** The `toString()` of a value. */
  function Show(j: Json): (r: string)
    ensures j.JNull? ==> r == "null"
    ensures j.JStr? ==> r == j.s
    ensures j.JArr? ==> |r| >= 2 && r[0] == '[' && r[|r| - 1] == ']'
    ensures j.JObj? ==> |r| >= 2 && r[0] == '{' && r[|r| - 1] == '}'
    decreases j
  {
    match j
    case JNull => "null"
    case JBool(b) => if b then "true" else "false"
    case JNum(n) => IntToString(n)
    case JStr(s) => s
    case JArr(items) =>
      "[" + Join(seq(|items|, i requires 0 <= i < |items| => Show(items[i])), ", ") + "]"
    case JObj(fields) =>
      "{" + Join(seq(|fields|, i requires 0 <= i < |fields| => ShowField(fields[i], j)), ", ") + "}"
  }

  function ShowField(f: Field, ghost parent: Json): string
    requires f < parent
    decreases parent, 0
  {
    f.key + "=" + Show(f.value)
  }

  predicate DistinctKeys(fields: seq<Field>) {
    forall i, j :: 0 <= i < j < |fields| ==> fields[i].key != fields[j].key
  }

  /** With distinct keys, the map form holds every entry's value under its key. */
  lemma {:induction false} AsMapHolds(fields: seq<Field>, i: nat)
    requires DistinctKeys(fields) && i < |fields|
    ensures fields[i].key in AsMap(fields) && AsMap(fields)[fields[i].key] == fields[i].value
    decreases |fields|
  {
    if i < |fields| - 1 {
      AsMapHolds(fields[..|fields| - 1], i);
    }
  }

  /** The parts a `joinToString(", ")` cannot confuse: non-empty and comma-free. */
  predicate CommaFree(parts: seq<string>) {
    forall i :: 0 <= i < |parts| ==> parts[i] != "" && ',' !in parts[i]
  }

  /** Joining with ", " is injective on non-empty comma-free parts. */
  lemma {:induction false} JoinInjective(a: seq<string>, b: seq<string>)
    requires CommaFree(a) && CommaFree(b)
    requires Join(a, ", ") == Join(b, ", ")
    ensures a == b
    decreases |a|
  {
    var s := Join(a, ", ");
    if |a| > 0 && |b| > 0 {
      HeadsAgree(a, b, s);
      HeadsAgree(b, a, s);
      assert a[0] == s[..|a[0]|] == b[0];
      if |a| > 1 && |b| > 1 {
        assert Join(a[1..], ", ") == s[|a[0]| + 2..] == Join(b[1..], ", ");
        JoinInjective(a[1..], b[1..]);
        assert a == [a[0]] + a[1..];
        assert b == [b[0]] + b[1..];
      }
    }
  }

  /** The first part of a join cannot be longer than the first part of another join of the same text. */
  lemma HeadsAgree(a: seq<string>, b: seq<string>, s: string)
    requires CommaFree(a) && CommaFree(b)
    requires |a| > 0 && |b| > 0
    requires s == Join(a, ", ") && s == Join(b, ", ")
    ensures |a[0]| <= |b[0]|
  {
    assert a[0] <= s;
    assert |b| > 1 ==> s[|b[0]|] == ',';
    assert forall k :: 0 <= k < |a[0]| ==> a[0][k] == s[k];
  }
}

=== FILE: prompt_builder.dfy ===
/**
  The conversation handed to the chat model: an append-only list of messages
  and an append-only list of tool definitions to advertise.
 */
module PromptBuilder {
  import opened Wrappers
  import opened ToolAdapter

  datatype Message =
    | SystemMessage(content: string)
    | UserMessage(content: string)
    | ToolMessage(toolCallId: string, toolContent: Option<string>)

  datatype Builder = Builder(messages: seq<Message>, toolDefinitions: seq<ToolDefinition>)

  const Empty := Builder([], [])

  /** `later` was reached from `earlier` by appending only: both lists keep their prefix. */
  predicate Extends(earlier: Builder, later: Builder) {
    earlier.messages <= later.messages && earlier.toolDefinitions <= later.toolDefinitions
  }

  function AddTool(b: Builder, d: ToolDefinition): (r: Builder)
    ensures Extends(b, r) && r.messages == b.messages
    ensures |r.toolDefinitions| == |b.toolDefinitions| + 1 && r.toolDefinitions[|b.toolDefinitions|] == d
  {
    b.(toolDefinitions := b.toolDefinitions + [d])
  }

  function AppendUserMessage(b: Builder, content: string): (r: Builder)
    ensures Extends(b, r) && r.toolDefinitions == b.toolDefinitions
    ensures |r.messages| == |b.messages| + 1 && r.messages[|b.messages|] == UserMessage(content)
  {
    b.(messages := b.messages + [UserMessage(content)])
  }

  function AppendSystemMessage(b: Builder, content: string): (r: Builder)
    ensures Extends(b, r) && r.toolDefinitions == b.toolDefinitions
    ensures |r.messages| == |b.messages| + 1 && r.messages[|b.messages|] == SystemMessage(content)
  {
    b.(messages := b.messages + [SystemMessage(content)])
  }

  /** A tool message records the call id it answers; its content may be null. */
  function AppendToolMessage(b: Builder, toolCallId: string, content: Option<string>): (r: Builder)
    ensures Extends(b, r) && r.toolDefinitions == b.toolDefinitions
    ensures |r.messages| == |b.messages| + 1 && r.messages[|b.messages|] == ToolMessage(toolCallId, content)
  {
    b.(messages := b.messages + [ToolMessage(toolCallId, content)])
  }

  /** Every definition converted in order; the first failing conversion is the result. */
  function ChatTools(defs: seq<ToolDefinition>): (r: Result<seq<ChatTool>>)
    ensures r.Success? <==> forall i :: 0 <= i < |defs| ==> ToolDefinitionToChatTool(defs[i]).Success?
    ensures r.Failure? ==> r.error == RequiredNotString
    ensures r.Success? ==> |r.value| == |defs|
    ensures r.Success? ==> forall i :: 0 <= i < |defs| ==> ToolDefinitionToChatTool(defs[i]) == Success(r.value[i])
  {
    if |defs| == 0 then Success([])
    else
      var head := ToolDefinitionToChatTool(defs[0]);
      var tail := ChatTools(defs[1..]);
      assert forall i :: 1 <= i < |defs| ==> defs[i] == defs[1..][i - 1];
      if head.Failure? then Failure(head.error)
      else if tail.Failure? then Failure(tail.error)
      else Success([head.value] + tail.value)
  }

  /** `build()`: the messages in insertion order and one chat tool per definition, in order.
      The builder itself is a value and is left as it was. */
  function Build(b: Builder): (r: Result<(seq<Message>, seq<ChatTool>)>)
    ensures r.Success? <==> ChatTools(b.toolDefinitions).Success?
    ensures r.Success? ==> r.value.0 == b.messages && r.value.1 == ChatTools(b.toolDefinitions).value
    ensures r.Success? ==> |r.value.1| == |b.toolDefinitions|
    ensures r.Success? ==> forall i :: 0 <= i < |r.value.1| ==>
      r.value.1[i].fn.name == b.toolDefinitions[i].name &&
      r.value.1[i].fn.description == b.toolDefinitions[i].description
  {
    var tools :- ChatTools(b.toolDefinitions);
    Success((b.messages, tools))
  }

  /** Building an extension and building the original agree on the original's part:
      earlier messages and tools come out unchanged by later appends. */
  lemma {:induction false} BuildPrefix(a: Builder, b: Builder)
    requires Extends(a, b) && Build(b).Success?
    ensures Build(a).Success?
    ensures Build(a).value.0 <= Build(b).value.0
    ensures Build(a).value.1 <= Build(b).value.1
  {
    var da := a.toolDefinitions;
    var db := b.toolDefinitions;
    assert forall i :: 0 <= i < |da| ==> da[i] == db[i];
    var ta := ChatTools(da).value;
    var tb := ChatTools(db).value;
    assert forall i :: 0 <= i < |ta| ==> Success(ta[i]) == ToolDefinitionToChatTool(da[i]) == Success(tb[i]);
  }

  /** The conversation the tests start from. */
  lemma OpeningConversation()
    ensures AppendUserMessage(AppendSystemMessage(Empty, "You ALWAYS search for tools to get the results."),
                              "Add 2 to 3 using available tools.").messages
         == [SystemMessage("You ALWAYS search for tools to get the results."),
             UserMessage("Add 2 to 3 using available tools.")]
  {
  }
}

=== FILE: tool_adapter.dfy ===
/**
  The two schema dialects and the translations between them.

  A server tool carries `type` and `properties` as schema fields and its
  `required` list among the schema's additional properties. The canonical
  `ToolDefinition` flattens the three into one schema map. The chat-model side
  receives a function tool whose parameters are a JSON object with
  `type: "object"`, the map-valued properties with every field rendered as a
  string (an `enum` list as an array of strings), and the `required` array.
 */
module ToolAdapter {
  import opened Wrappers
  import opened JsonValues

  /** A tool as the connection stores it (the server dialect). */
  datatype ServerTool = ServerTool(
    name: string,
    description: string,
    schemaType: Json,
    properties: Json,
    additional: map<string, Json>)

  /** The canonical tool description: the schema holds "type", "properties" and "required". */
  datatype ToolDefinition = ToolDefinition(name: string, description: string, inputSchema: map<string, Json>)

  datatype ToolType = Function
  datatype FunctionTool = FunctionTool(name: string, parameters: Json, description: string)
  /** A tool as the chat model is told about it. */
  datatype ChatTool = ChatTool(toolType: ToolType, fn: FunctionTool)

  /** Server dialect to canonical: lifts `required` out of the additional properties, and
      fails (a `!!` on null) when it is not there. */
  function ServerToolToToolDefinition(t: ServerTool): (r: Result<ToolDefinition>)
    ensures r.Success? <==> "required" in t.additional
    ensures r.Failure? ==> r.error == MissingRequired
    ensures r.Success? ==> r.value.name == t.name && r.value.description == t.description
    ensures r.Success? ==> r.value.inputSchema.Keys == {"type", "properties", "required"}
    ensures r.Success? ==>
      && r.value.inputSchema["type"] == t.schemaType
      && r.value.inputSchema["properties"] == t.properties
      && r.value.inputSchema["required"] == t.additional["required"]
  {
    if "required" !in t.additional then Failure(MissingRequired)
    else Success(ToolDefinition(t.name, t.description, map[
      "type" := t.schemaType,
      "properties" := t.properties,
      "required" := t.additional["required"]]))
  }

  /** A field value as the chat-model side stores it: a string, or an array of strings. */
  predicate Stringified(j: Json) {
    j.JStr? || (j.JArr? && AllStrings(j.items))
  }

  predicate IsEnumList(f: Field) {
    f.key == "enum" && f.value.JArr?
  }

  /** One field of a property: an `enum` list keeps its entries, each as its string form;
      every other value, lists under other keys included, becomes its string form. */
  function ConvertField(f: Field): (g: Field)
    ensures g.key == f.key && Stringified(g.value)
    ensures f.value.JStr? ==> g == f
    ensures IsEnumList(f) ==>
      g.value.JArr? && |g.value.items| == |f.value.items| &&
      forall k :: 0 <= k < |f.value.items| ==> g.value.items[k] == JStr(Show(f.value.items[k]))
    ensures !IsEnumList(f) ==> g.value == JStr(Show(f.value))
  {
    if IsEnumList(f) then
      Field(f.key, JArr(seq(|f.value.items|, k requires 0 <= k < |f.value.items| => JStr(Show(f.value.items[k])))))
    else
      Field(f.key, JStr(Show(f.value)))
  }

  /** The fields of one property, converted in order. */
  function ConvertProperty(fields: seq<Field>): (r: seq<Field>)
    ensures |r| == |fields| && Keys(r) == Keys(fields)
    ensures forall i :: 0 <= i < |r| ==> r[i] == ConvertField(fields[i])
  {
    seq(|fields|, i requires 0 <= i < |fields| => ConvertField(fields[i]))
  }

  /** The `properties` object: map-valued entries are kept (converted) under their own
      name and in their own order; every other entry is dropped. */
  function ConvertProperties(fields: seq<Field>): (r: seq<Field>)
    ensures |r| <= |fields|
    ensures forall g :: g in r ==> g.value.JObj?
    ensures forall f :: f in fields && f.value.JObj? ==> ConvertedProperty(f) in r
    ensures forall g :: g in r ==> exists f :: f in fields && f.value.JObj? && g == ConvertedProperty(f)
  {
    if |fields| == 0 then []
    else
      var rest := ConvertProperties(fields[1..]);
      assert forall f :: f in fields[1..] ==> f in fields;
      if fields[0].value.JObj? then
        [Field(fields[0].key, JObj(ConvertProperty(fields[0].value.fields)))] + rest
      else
        rest
  }

  /** A map-valued property under its own name, its fields converted. */
  function ConvertedProperty(f: Field): Field
    requires f.value.JObj?
  {
    Field(f.key, JObj(ConvertProperty(f.value.fields)))
  }

  /** The properties are converted piecewise: converting a concatenation concatenates the
      conversions, so the kept entries stay in their own order. */
  lemma {:induction false} ConvertPropertiesAppend(a: seq<Field>, b: seq<Field>)
    ensures ConvertProperties(a + b) == ConvertProperties(a) + ConvertProperties(b)
    decreases |a|
  {
    if |a| == 0 {
      assert a + b == b;
    } else {
      assert (a + b)[0] == a[0];
      assert (a + b)[1..] == a[1..] + b;
      ConvertPropertiesAppend(a[1..], b);
    }
  }

  /** A single entry is kept, converted, exactly when it is map-valued. Together with
      `ConvertPropertiesAppend` this fixes the result of every input. */
  lemma ConvertPropertiesOne(f: Field)
    ensures f.value.JObj? ==> ConvertProperties([f]) == [ConvertedProperty(f)]
    ensures !f.value.JObj? ==> ConvertProperties([f]) == []
  {
    assert [f][1..] == [];
  }

  /** The entries of a `required` list that survive the unchecked cast to a list of strings
      and `add`: the JVM cast of each entry to `String` accepts a string or null, and
      `add(null)` stores JSON null. */
  predicate StringOrNullEntries(items: seq<Json>) {
    forall i :: 0 <= i < |items| ==> items[i].JStr? || items[i].JNull?
  }

  /** The function parameters built from a canonical schema. The `required` value is taken
      when it is a list and copied as it is; an entry of it that is neither a string nor
      null is a cast failure. */
  function BuildToolParameters(schema: map<string, Json>): (r: Result<Json>)
    ensures r.Failure? <==> "required" in schema && schema["required"].JArr? && !StringOrNullEntries(schema["required"].items)
    ensures r.Failure? ==> r.error == RequiredNotString
    ensures r.Success? ==> r.value.JObj? && Lookup(r.value.fields, "type") == Some(JStr("object"))
    ensures r.Success? ==>
      (Lookup(r.value.fields, "properties").Some? <==> "properties" in schema && schema["properties"].JObj?)
    ensures r.Success? && "properties" in schema && schema["properties"].JObj? ==>
      Lookup(r.value.fields, "properties") == Some(JObj(ConvertProperties(schema["properties"].fields)))
    ensures r.Success? ==>
      Lookup(r.value.fields, "required") ==
        (if "required" in schema && schema["required"].JArr? then Some(schema["required"]) else None)
    ensures r.Success? ==> |r.value.fields| <= 3
    ensures r.Success? ==> DistinctKeys(r.value.fields)
    ensures r.Success? ==> forall i :: 0 <= i < |r.value.fields| ==> r.value.fields[i].key in ParamsKeys
  {
    if "required" in schema && schema["required"].JArr? && !StringOrNullEntries(schema["required"].items) then
      Failure(RequiredNotString)
    else
      var props :=
        if "properties" in schema && schema["properties"].JObj?
        then Some(JObj(ConvertProperties(schema["properties"].fields)))
        else None;
      var req := if "required" in schema && schema["required"].JArr? then Some(schema["required"]) else None;
      ParamsFieldsLookup(props, req);
      ParamsFieldsKeys(props, req);
      Success(JObj(ParamsFields(props, req)))
  }

  /** The only keys a parameters object can have. */
  const ParamsKeys: set<string> := {"type", "properties", "required"}

  /** The entries of a parameters object: "type", then "properties" and "required" when given. */
  function ParamsFields(props: Option<Json>, req: Option<Json>): seq<Field> {
    [Field("type", JStr("object"))]
      + (if props.Some? then [Field("properties", props.value)] else [])
      + (if req.Some? then [Field("required", req.value)] else [])
  }

  lemma ParamsFieldsLookup(props: Option<Json>, req: Option<Json>)
    ensures var fields := ParamsFields(props, req);
      && |fields| <= 3
      && Lookup(fields, "type") == Some(JStr("object"))
      && Lookup(fields, "properties") == props
      && Lookup(fields, "required") == req
  {
    var fields := ParamsFields(props, req);
    var pf := if props.Some? then [Field("properties", props.value)] else [];
    var rf := if req.Some? then [Field("required", req.value)] else [];
    assert fields[1..] == pf + rf;
    assert (pf + rf)[|pf|..] == rf;
    assert Lookup(fields, "properties") == Lookup(pf + rf, "properties");
    assert Lookup(fields, "required") == Lookup(pf + rf, "required") == Lookup(rf, "required");
  }

  /** A parameters object has distinct keys, all of them among the three it may have. */
  lemma ParamsFieldsKeys(props: Option<Json>, req: Option<Json>)
    ensures var fields := ParamsFields(props, req);
      DistinctKeys(fields) && forall i :: 0 <= i < |fields| ==> fields[i].key in ParamsKeys
  {
    var fields := ParamsFields(props, req);
    var t := Field("type", JStr("object"));
    if props.Some? && req.Some? {
      assert fields == [t, Field("properties", props.value), Field("required", req.value)];
    } else if props.Some? {
      assert fields == [t, Field("properties", props.value)];
    } else if req.Some? {
      assert fields == [t, Field("required", req.value)];
    } else {
      assert fields == [t];
    }
  }

  /** Canonical to chat-model dialect. */
  function ToolDefinitionToChatTool(d: ToolDefinition): (r: Result<ChatTool>)
    ensures r.Success? <==> BuildToolParameters(d.inputSchema).Success?
    ensures r.Failure? ==> r.error == RequiredNotString
    ensures r.Success? ==>
      && r.value.toolType == Function
      && r.value.fn.name == d.name
      && r.value.fn.description == d.description
      && r.value.fn.parameters == BuildToolParameters(d.inputSchema).value
  {
    var params :- BuildToolParameters(d.inputSchema);
    Success(ChatTool(Function, FunctionTool(d.name, params, d.description)))
  }

  /** Converting a property twice is converting it once. */
  lemma ConvertPropertyIdempotent(fields: seq<Field>)
    ensures ConvertProperty(ConvertProperty(fields)) == ConvertProperty(fields)
  {
    var once := ConvertProperty(fields);
    forall i | 0 <= i < |fields|
      ensures ConvertField(once[i]) == once[i]
    {
      var g := once[i];
      if IsEnumList(fields[i]) {
        assert g.value.JArr? && AllStrings(g.value.items);
        var h := ConvertField(g);
        assert |h.value.items| == |g.value.items|;
        forall k | 0 <= k < |g.value.items|
          ensures h.value.items[k] == g.value.items[k]
        {
          assert g.value.items[k].JStr?;
        }
      }
    }
  }

  /** Converting the properties object twice is converting it once. */
  lemma {:induction false} ConvertPropertiesIdempotent(fields: seq<Field>)
    ensures ConvertProperties(ConvertProperties(fields)) == ConvertProperties(fields)
    decreases |fields|
  {
    if |fields| > 0 {
      ConvertPropertiesIdempotent(fields[1..]);
      var rest := ConvertProperties(fields[1..]);
      if fields[0].value.JObj? {
        var head := ConvertedProperty(fields[0]);
        ConvertPropertyIdempotent(fields[0].value.fields);
        assert ([head] + rest)[1..] == rest;
        assert ConvertProperties([head] + rest) == [head] + ConvertProperties(rest);
      }
    }
  }

  /** The parameters object is a normal form: reading it back as a schema map and
      building again reproduces it exactly. */
  lemma BuildToolParametersNormalForm(schema: map<string, Json>)
    requires BuildToolParameters(schema).Success?
    ensures var p := BuildToolParameters(schema).value;
      p.JObj? && BuildToolParameters(AsMap(p.fields)) == Success(p)
  {
    var p := BuildToolParameters(schema).value;
    var hasProps := "properties" in schema && schema["properties"].JObj?;
    var hasReq := "required" in schema && schema["required"].JArr?;
    var props := if hasProps then Some(JObj(ConvertProperties(schema["properties"].fields))) else None;
    var req := if hasReq then Some(schema["required"]) else None;
    assert p == JObj(ParamsFields(props, req));
    if hasProps {
      ConvertPropertiesIdempotent(schema["properties"].fields);
    }
    RebuildParams(props, req);
  }

  /** Entries whose properties are already converted and whose `required` is a list of
      strings and nulls build back to themselves. */
  lemma RebuildParams(props: Option<Json>, req: Option<Json>)
    requires props.Some? ==> props.value.JObj? && ConvertProperties(props.value.fields) == props.value.fields
    requires req.Some? ==> req.value.JArr? && StringOrNullEntries(req.value.items)
    ensures BuildToolParameters(AsMap(ParamsFields(props, req))) == Success(JObj(ParamsFields(props, req)))
  {
    ParamsFieldsAsMap(props, req);
  }

  /** Reading the entries of a parameters object as a map finds "properties" and "required"
      exactly when they were given, holding what was given. */
  lemma ParamsFieldsAsMap(props: Option<Json>, req: Option<Json>)
    ensures var m := AsMap(ParamsFields(props, req));
      && ("properties" in m <==> props.Some?) && (props.Some? ==> m["properties"] == props.value)
      && ("required" in m <==> req.Some?) && (req.Some? ==> m["required"] == req.value)
  {
    var t := [Field("type", JStr("object"))];
    var pf := if props.Some? then [Field("properties", props.value)] else [];
    var rf := if req.Some? then [Field("required", req.value)] else [];
    AsMapSnoc([], t[0]);
    assert [] + [t[0]] == t;
    if props.Some? {
      AsMapSnoc(t, pf[0]);
    } else {
      assert t + pf == t;
    }
    if req.Some? {
      AsMapSnoc(t + pf, rf[0]);
    } else {
      assert t + pf + rf == t + pf;
    }
  }

  /** The declared type of the input schema is ignored: the parameters always say "object". */
  lemma TypeIsAlwaysObject(schema: map<string, Json>, t: Json)
    requires BuildToolParameters(schema).Success?
    ensures BuildToolParameters(schema["type" := t]) == BuildToolParameters(schema)
  {
  }

  /** A server tool whose `required` is a list of names reaches the chat model with those
      names, in order, as its `required` array. */
  lemma RequiredNamesReachChatTool(t: ServerTool, names: seq<string>)
    requires "required" in t.additional && t.additional["required"] == StrArray(names)
    ensures ServerToolToToolDefinition(t).Success?
    ensures var c := ToolDefinitionToChatTool(ServerToolToToolDefinition(t).value);
      c.Success? && c.value.fn.name == t.name &&
      Lookup(c.value.fn.parameters.fields, "required") == Some(StrArray(names))
  {
  }

  /** A null entry of `required` passes the cast and is kept as JSON null. */
  lemma NullRequiredEntryKept()
    ensures BuildToolParameters(map["required" := JArr([JNull])]) ==
      Success(JObj([Field("type", JStr("object")), Field("required", JArr([JNull]))]))
  {
    var items := [JNull];
    assert StringOrNullEntries(items) by { assert items[0].JNull?; }
    assert ParamsFields(None, Some(JArr(items))) == [Field("type", JStr("object")), Field("required", JArr(items))];
  }
}

=== FILE: tools_server_connection.dfy ===
/**
  One connection to a tool server: its client identity, its transport, and the
  three catalogs (tools, prompts, resources) discovered at connect time, each
  either absent (the listing failed) or a list in server order, possibly empty.

  The remote server is an oracle: `ServerAnswers` fixes in advance how the
  handshake and the three listings turn out, and a tool-call function gives
  the result of each call.
 */
module ToolsServerConnection {
  import opened Wrappers
  import opened JsonValues
  import opened ToolAdapter
  import Transport

  const DefaultClientName := "default-client"
  const DefaultClientVersion := "1.0.0"
  const DefaultDescription := "The mcp server didn't provided a description for this tool."

  // ---------------------------------------------------------------------------
  // Tool results and their text

  datatype Content = TextContent(text: Option<string>) | OtherContent(kind: string)
  datatype CallResult = CallResult(content: seq<Content>)

  /** The text of each part, a null text read as ""; a part that is not text is a cast failure. */
  function PartTexts(parts: seq<Content>): (r: Result<seq<string>>)
    ensures r.Success? <==> forall i :: 0 <= i < |parts| ==> parts[i].TextContent?
    ensures r.Failure? ==> r.error == NotTextContent
    ensures r.Success? ==> |r.value| == |parts|
    ensures r.Success? ==> forall i :: 0 <= i < |parts| ==> r.value[i] == parts[i].text.GetOr("")
  {
    if |parts| == 0 then Success([])
    else if parts[0].OtherContent? then Failure(NotTextContent)
    else
      var rest :- PartTexts(parts[1..]);
      assert forall i :: 1 <= i < |parts| ==> parts[i] == parts[1..][i - 1];
      Success([parts[0].text.GetOr("")] + rest)
  }

  /** `extractText`: the parts' texts joined by newlines; null for a null result. */
  function ExtractText(result: Option<CallResult>): (r: Result<Option<string>>)
    ensures result.None? ==> r == Success(None)
    ensures result.Some? ==> (r.Success? <==> PartTexts(result.value.content).Success?)
    ensures r.Failure? ==> r.error == NotTextContent
    ensures result.Some? && r.Success? ==> r.value == Some(Join(PartTexts(result.value.content).value, "\n"))
  {
    match result
    case None => Success(None)
    case Some(res) =>
      var texts :- PartTexts(res.content);
      Success(Some(Join(texts, "\n")))
  }

  /** The extracted text is as long as the parts' texts plus one newline between each two. */
  lemma ExtractTextLength(result: CallResult)
    requires PartTexts(result.content).Success? && |result.content| > 0
    ensures var texts := PartTexts(result.content).value;
      |ExtractText(Some(result)).value.value| == SumLengths(texts) + |texts| - 1
  {
    JoinLength(PartTexts(result.content).value, "\n");
  }

  const ResultOpen := "{\"type\": \"tool_result\",\"tool_name\": \""
  const ResultMiddle := "\",\"result\": \""
  const ResultClose := "\"}"

  /** The fixed tool-result text, with both values interpolated as they are (no escaping). */
  function ToolResultJson(toolName: string, text: string): (r: string)
    ensures |r| == |toolName| + |text| + 52
    ensures r[..37] == ResultOpen && r[37..37 + |toolName|] == toolName && r[|r| - 2..] == ResultClose
  {
    var head := ResultOpen + toolName;
    var r := head + ResultMiddle + text + ResultClose;
    assert |ResultOpen| == 37 && |ResultMiddle| == 13 && |ResultClose| == 2;
    assert r[..|head|] == head && head[..37] == ResultOpen && head[37..] == toolName;
    assert r[|r| - 2..] == ResultClose;
    r
  }

  /** Reads a tool-result text for a known tool name back into its result field. */
  function ParseToolResult(toolName: string, s: string): (r: Option<string>)
    ensures r.Some? ==> s == ToolResultJson(toolName, r.value)
  {
    var head := ResultOpen + toolName + ResultMiddle;
    if |s| >= |head| + |ResultClose| && s[..|head|] == head && s[|s| - |ResultClose|..] == ResultClose
    then
      var text := s[|head|..|s| - |ResultClose|];
      assert s == s[..|head|] + text + s[|s| - |ResultClose|..];
      Some(text)
    else None
  }

  /** `extractTextForLLM`: never null; a null result shows as the literal text `null`. */
  function ExtractTextForLLM(toolName: string, result: Option<CallResult>): (r: Result<string>)
    ensures r.Success? <==> ExtractText(result).Success?
    ensures r.Failure? ==> r.error == NotTextContent
    ensures r.Success? ==> r.value == ToolResultJson(toolName, ExtractText(result).value.GetOr("null"))
    ensures result.None? ==> r == Success(ToolResultJson(toolName, "null"))
  {
    var joined :- ExtractText(result);
    Success(ToolResultJson(toolName, joined.GetOr("null")))
  }

  /** The result field is recovered exactly, whatever it contains (quotes and newlines included). */
  lemma {:induction false} ToolResultRoundTrip(toolName: string, text: string)
    ensures ParseToolResult(toolName, ToolResultJson(toolName, text)) == Some(text)
  {
    var head := ResultOpen + toolName + ResultMiddle;
    var s := ToolResultJson(toolName, text);
    assert s == head + text + ResultClose;
    assert s[..|head|] == head;
    assert s[|s| - |ResultClose|..] == ResultClose;
    assert s[|head|..|s| - |ResultClose|] == text;
  }

  /** The exact text the tests expect for an `add` call answering "5". */
  lemma ExtractTextForLLMExample()
    ensures ExtractText(Some(CallResult([TextContent(Some("5"))]))) == Success(Some("5"))
    ensures ExtractTextForLLM("add", Some(CallResult([TextContent(Some("5"))])))
         == Success("{\"type\": \"tool_result\",\"tool_name\": \"add\",\"result\": \"5\"}")
  {
    var parts := [TextContent(Some("5"))];
    assert parts[0].TextContent?;
    var texts := PartTexts(parts).value;
    assert texts[0] == "5";
    assert texts == ["5"];
    assert ExtractText(Some(CallResult(parts))) == Success(Some("5"));
    assert ToolResultJson("add", "5") == "{\"type\": \"tool_result\",\"tool_name\": \"add\",\"result\": \"5\"}";
  }

  /** Several parts are joined with newlines; a null text contributes an empty line. */
  lemma ExtractTextJoins()
    ensures ExtractText(Some(CallResult([TextContent(Some("a")), TextContent(None), TextContent(Some("b"))])))
         == Success(Some("a\n\nb"))
    ensures ExtractText(Some(CallResult([TextContent(Some("a")), OtherContent("image")]))) == Failure(NotTextContent)
  {
    var parts := [TextContent(Some("a")), TextContent(None), TextContent(Some("b"))];
    assert parts[0].TextContent? && parts[1].TextContent? && parts[2].TextContent?;
    var texts := PartTexts(parts).value;
    assert texts[0] == "a" && texts[1] == "" && texts[2] == "b";
    assert texts == ["a", "", "b"];
    assert texts[1..] == ["", "b"] && ["", "b"][1..] == ["b"];
    assert Join(["", "b"], "\n") == "" + "\n" + "b";
    assert Join(texts, "\n") == "a" + "\n" + Join(["", "b"], "\n") == "a\n\nb";
    var bad := [TextContent(Some("a")), OtherContent("image")];
    assert bad[1].OtherContent?;
  }

  // ---------------------------------------------------------------------------
  // Catalogs

  /** The schema of a tool as the server reports it. */
  datatype McpInput = McpInput(schemaType: string, properties: Json, required: Option<seq<string>>)
  datatype McpTool = McpTool(name: string, description: Option<string>, inputSchema: McpInput)
  datatype Prompt = Prompt(name: string, description: Option<string>)
  datatype Resource = Resource(uri: string, name: string)

  /** How one listing call ends: it raised, or it returned a (possibly null) list. */
  datatype Listing<T> = ListingFailed | Listed(items: Option<seq<T>>)

  /** What the remote server answers when connected to. */
  datatype ServerAnswers = ServerAnswers(
    handshakeOk: bool,
    tools: Listing<McpTool>,
    prompts: Listing<Prompt>,
    resources: Listing<Resource>)

  datatype Connection = Connection(
    transport: Transport.State,
    clientName: string,
    clientVersion: string,
    tools: Option<seq<ServerTool>>,
    prompts: Option<seq<Prompt>>,
    resources: Option<seq<Resource>>)

  /** The constructor; an omitted name or version (`None`) takes the default. */
  function NewConnection(transport: Transport.State, clientName: Option<string>, clientVersion: Option<string>): (c: Connection)
    ensures c.tools.None? && c.prompts.None? && c.resources.None? && c.transport == transport
    ensures clientName.Some? ==> c.clientName == clientName.value
    ensures clientVersion.Some? ==> c.clientVersion == clientVersion.value
    ensures clientName.None? ==> c.clientName == "default-client"
    ensures clientVersion.None? ==> c.clientVersion == "1.0.0"
  {
    Connection(transport, clientName.GetOr(DefaultClientName), clientVersion.GetOr(DefaultClientVersion), None, None, None)
  }

  /** The catalog a listing leaves behind: absent if the call raised, else the list
      (a null list reads as empty). */
  function Catalog<T>(l: Listing<T>): (r: Option<seq<T>>)
    ensures r.None? <==> l.ListingFailed?
    ensures l.Listed? && l.items.Some? ==> r == l.items
    ensures l.Listed? && l.items.None? ==> r == Some([])
  {
    match l
    case ListingFailed => None
    case Listed(items) => Some(items.GetOr([]))
  }

  /** The value `JsonValue.from` gives a required list: an array of names, or JSON null. */
  function RequiredValue(required: Option<seq<string>>): (j: Json)
    ensures required.Some? ==> j == StrArray(required.value)
    ensures required.None? ==> j == JNull
  {
    match required
    case Some(names) => StrArray(names)
    case None => JNull
  }

  /** A reported tool in the server dialect: `required` always goes into the additional
      properties (null when the server gave none), and a missing description gets the default. */
  function ToServerTool(t: McpTool): (s: ServerTool)
    ensures s.name == t.name && s.description == t.description.GetOr(DefaultDescription)
    ensures s.schemaType == JStr(t.inputSchema.schemaType) && s.properties == t.inputSchema.properties
    ensures s.additional == map["required" := RequiredValue(t.inputSchema.required)]
  {
    ServerTool(t.name, t.description.GetOr(DefaultDescription), JStr(t.inputSchema.schemaType),
               t.inputSchema.properties, map["required" := RequiredValue(t.inputSchema.required)])
  }

  function ToServerTools(ts: seq<McpTool>): (r: seq<ServerTool>)
    ensures |r| == |ts|
    ensures forall i :: 0 <= i < |ts| ==> r[i] == ToServerTool(ts[i])
  {
    seq(|ts|, i requires 0 <= i < |ts| => ToServerTool(ts[i]))
  }

  function SetServerTools(c: Connection, l: Listing<McpTool>): (r: Connection)
    ensures r.tools.None? <==> l.ListingFailed?
    ensures r.tools.Some? ==> r.tools.value == ToServerTools(Catalog(l).value)
    ensures r.prompts == c.prompts && r.resources == c.resources && r.transport == c.transport
    ensures r.clientName == c.clientName && r.clientVersion == c.clientVersion
  {
    c.(tools := match Catalog(l) case None => None case Some(ts) => Some(ToServerTools(ts)))
  }

  function SetServerPrompts(c: Connection, l: Listing<Prompt>): (r: Connection)
    ensures r.prompts == Catalog(l)
    ensures r.tools == c.tools && r.resources == c.resources && r.transport == c.transport
    ensures r.clientName == c.clientName && r.clientVersion == c.clientVersion
  {
    c.(prompts := Catalog(l))
  }

  function SetServerResources(c: Connection, l: Listing<Resource>): (r: Connection)
    ensures r.resources == Catalog(l)
    ensures r.tools == c.tools && r.prompts == c.prompts && r.transport == c.transport
    ensures r.clientName == c.clientName && r.clientVersion == c.clientVersion
  {
    c.(resources := Catalog(l))
  }

  predicate NullOrEmpty<T>(o: Option<seq<T>>) {
    o.None? || o.value == []
  }

  /** `connect()`: obtain the channel through the transport getter, handshake, set the three
      catalogs independently, and refuse a server that offers nothing at all. */
  function Connect(c: Connection, launch: Transport.Launcher, answers: ServerAnswers): (r: Result<Connection>)
    requires Transport.Valid(c.transport)
    ensures r.Failure? <==>
      Transport.Get(c.transport, launch).Failure? || !answers.handshakeOk ||
      (NullOrEmpty(Catalog(answers.tools)) && NullOrEmpty(Catalog(answers.prompts)) && NullOrEmpty(Catalog(answers.resources)))
    ensures r.Failure? ==>
      r.error == (if Transport.Get(c.transport, launch).Failure? then ProcessStartFailed
                  else if answers.handshakeOk then EmptyServer
                  else HandshakeFailed)
    ensures r.Success? ==>
      && r.value.clientName == c.clientName && r.value.clientVersion == c.clientVersion
      && r.value.transport == Transport.Get(c.transport, launch).value.0
      && (r.value.tools.None? <==> answers.tools.ListingFailed?)
      && (r.value.tools.Some? ==> r.value.tools.value == ToServerTools(Catalog(answers.tools).value))
      && r.value.prompts == Catalog(answers.prompts)
      && r.value.resources == Catalog(answers.resources)
  {
    var got :- Transport.Get(c.transport, launch);
    var linked := c.(transport := got.0);
    if !answers.handshakeOk then Failure(HandshakeFailed)
    else
      var listed := SetServerResources(SetServerPrompts(SetServerTools(linked, answers.tools), answers.prompts), answers.resources);
      if NullOrEmpty(listed.tools) && NullOrEmpty(listed.prompts) && NullOrEmpty(listed.resources) then
        Failure(EmptyServer)
      else
        Success(listed)
  }

  /** A failed prompt listing only costs the prompt catalog. */
  lemma CatalogDegradation(c: Connection, launch: Transport.Launcher, tools: seq<McpTool>, resources: seq<Resource>)
    requires Transport.Valid(c.transport) && Transport.Get(c.transport, launch).Success?
    requires tools != [] && resources != []
    ensures var r := Connect(c, launch, ServerAnswers(true, Listed(Some(tools)), ListingFailed, Listed(Some(resources))));
      r.Success? && r.value.prompts.None? &&
      r.value.tools == Some(ToServerTools(tools)) && r.value.resources == Some(resources)
  {
  }

  /** An empty but successful listing is not an absent one, yet neither rescues an empty server. */
  lemma EmptyListingsRejected(c: Connection, launch: Transport.Launcher)
    requires Transport.Valid(c.transport) && Transport.Get(c.transport, launch).Success?
    ensures Connect(c, launch, ServerAnswers(true, Listed(None), Listed(Some([])), ListingFailed)) == Failure(EmptyServer)
  {
  }

  /** `disconnect()` closes the transport, and raises when closing does. */
  function Disconnect(c: Connection, launch: Transport.Launcher): (r: Result<Connection>)
    requires Transport.Valid(c.transport)
    ensures r.Failure? <==> Transport.Close(c.transport, launch).Failure?
    ensures r.Failure? ==> r.error == ProcessStartFailed
    ensures r.Success? ==> r.value.transport == Transport.Close(c.transport, launch).value
    ensures r.Success? ==> r.value.tools == c.tools && r.value.prompts == c.prompts && r.value.resources == c.resources
  {
    var closed :- Transport.Close(c.transport, launch);
    Success(c.(transport := closed))
  }

  function ToolDefinitions(ts: seq<ServerTool>): (r: Result<seq<ToolDefinition>>)
    ensures r.Success? <==> forall i :: 0 <= i < |ts| ==> "required" in ts[i].additional
    ensures r.Failure? ==> r.error == MissingRequired
    ensures r.Success? ==> |r.value| == |ts|
    ensures r.Success? ==> forall i :: 0 <= i < |ts| ==> ServerToolToToolDefinition(ts[i]) == Success(r.value[i])
  {
    if |ts| == 0 then Success([])
    else
      var head := ServerToolToToolDefinition(ts[0]);
      var tail := ToolDefinitions(ts[1..]);
      assert forall i :: 1 <= i < |ts| ==> ts[i] == ts[1..][i - 1];
      if head.Failure? then Failure(head.error)
      else if tail.Failure? then Failure(tail.error)
      else Success([head.value] + tail.value)
  }

  /** `getToolDefinitions()`: absent exactly when the tool catalog is, else one canonical
      definition per tool in catalog order. */
  function GetToolDefinitions(c: Connection): (r: Result<Option<seq<ToolDefinition>>>)
    ensures c.tools.None? ==> r == Success(None)
    ensures c.tools.Some? ==> (r.Success? <==> ToolDefinitions(c.tools.value).Success?)
    ensures r.Failure? ==> r.error == MissingRequired
    ensures r.Success? ==> (r.value.Some? <==> c.tools.Some?)
    ensures r.Success? && c.tools.Some? ==> r.value.value == ToolDefinitions(c.tools.value).value
  {
    match c.tools
    case None => Success(None)
    case Some(ts) =>
      var defs :- ToolDefinitions(ts);
      Success(Some(defs))
  }

  /** Every tool a connection stores carries a "required" entry. */
  predicate ToolsCarryRequired(c: Connection) {
    c.tools.Some? ==> forall i :: 0 <= i < |c.tools.value| ==> "required" in c.tools.value[i].additional
  }

  /** Tools stored by the listing step always carry "required", so converting them never
      fails, and the definitions follow the server's names and order. */
  lemma ListedToolsConvert(c: Connection, l: Listing<McpTool>)
    ensures ToolsCarryRequired(SetServerTools(c, l))
    ensures var r := GetToolDefinitions(SetServerTools(c, l));
      r.Success? && (r.value.Some? <==> l.Listed?) &&
      (r.value.Some? ==>
        && |r.value.value| == |Catalog(l).value|
        && forall i :: 0 <= i < |r.value.value| ==>
             && r.value.value[i].name == Catalog(l).value[i].name
             && r.value.value[i].inputSchema["required"] == RequiredValue(Catalog(l).value[i].inputSchema.required))
  {
  }

  /** A connect that succeeds leaves only convertible tools behind. */
  lemma ConnectedToolsConvert(c: Connection, launch: Transport.Launcher, answers: ServerAnswers)
    requires Transport.Valid(c.transport) && Connect(c, launch, answers).Success?
    ensures ToolsCarryRequired(Connect(c, launch, answers).value)
    ensures GetToolDefinitions(Connect(c, launch, answers).value).Success?
  {
    ListedToolsConvert(c, answers.tools);
  }

  // ---------------------------------------------------------------------------
  // Calling a tool

  /** How the server answers one call-tool request. */
  datatype CallOutcome = Returned(result: Option<CallResult>) | Raised

  /** `callTool(name, args)`: null arguments are sent as an empty map. */
  function CallTool(server: (string, seq<Field>) -> CallOutcome, toolName: string, args: Option<seq<Field>>): (r: Result<Option<CallResult>>)
    ensures r.Failure? <==> server(toolName, args.GetOr([])).Raised?
    ensures r.Failure? ==> r.error == ToolInvocationFailed
    ensures r.Success? ==> r.value == server(toolName, args.GetOr([])).result
  {
    match server(toolName, args.GetOr([]))
    case Returned(result) => Success(result)
    case Raised => Failure(ToolInvocationFailed)
  }

  /** To the server, null arguments and an empty argument map are the same call. */
  lemma NullArgumentsAreEmpty(server: (string, seq<Field>) -> CallOutcome, toolName: string)
    ensures CallTool(server, toolName, None) == CallTool(server, toolName, Some([]))
  {
  }
}

=== FILE: tools_service.dfy ===
/**
  The tool registry and the agent loop.

  Connections are registered under "<clientName>/v<clientVersion>" in a
  insertion-ordered map: registering a key again replaces the connection but
  keeps the key's first position. A tool name is resolved by scanning every
  connection's definitions in registry order; the LAST match wins. A call is
  accepted when the rendered list of its argument keys equals the rendered
  `required` value of the matched schema. The loop asks a chat model (a
  finite list of responses) for a tool call until one succeeds, counting
  turns without a call and starting the count again after any failed call.
 */
module ToolsService {
  import opened Wrappers
  import opened JsonValues
  import opened ToolAdapter
  import opened PromptBuilder
  import C = ToolsServerConnection
  import Transport

  const DefaultRetry := 5

  // ---------------------------------------------------------------------------
  // Registry

  datatype Entry = Entry(key: string, conn: C.Connection)
  type Registry = seq<Entry>

  function RegistryKey(c: C.Connection): string {
    c.clientName + "/v" + c.clientVersion
  }

  function KeysOf(reg: Registry): (ks: seq<string>)
    ensures |ks| == |reg| && forall i :: 0 <= i < |reg| ==> ks[i] == reg[i].key
  {
    seq(|reg|, i requires 0 <= i < |reg| => reg[i].key)
  }

  predicate KeysDistinct(reg: Registry) {
    forall i, j :: 0 <= i < j < |reg| ==> reg[i].key != reg[j].key
  }

  /** The position of `key` in the registry, if it is there. */
  function IndexOfKey(reg: Registry, key: string): (r: Option<nat>)
    ensures r.Some? ==> r.value < |reg| && reg[r.value].key == key
    ensures r.None? <==> key !in KeysOf(reg)
  {
    if |reg| == 0 then None
    else if reg[0].key == key then Some(0)
    else
      var rest := IndexOfKey(reg[1..], key);
      assert KeysOf(reg) == [reg[0].key] + KeysOf(reg[1..]);
      if rest.Some? then Some(rest.value + 1) else None
  }

  /** A map `put`: an existing key keeps its position and gets the new connection,
      a new key goes at the end. */
  function Put(reg: Registry, key: string, conn: C.Connection): (r: Registry)
    requires KeysDistinct(reg)
    ensures KeysDistinct(r)
    ensures key in KeysOf(reg) ==> KeysOf(r) == KeysOf(reg)
    ensures key in KeysOf(reg) ==>
      |r| == |reg| && forall i :: 0 <= i < |reg| ==> r[i] == (if reg[i].key == key then Entry(key, conn) else reg[i])
    ensures key !in KeysOf(reg) ==> r == reg + [Entry(key, conn)] && KeysOf(r) == KeysOf(reg) + [key]
  {
    match IndexOfKey(reg, key)
    case Some(i) => reg[i := Entry(key, conn)]
    case None => reg + [Entry(key, conn)]
  }

  /** The connection registered last under `key`, if any. */
  function LastWithKey(conns: seq<C.Connection>, key: string): Option<C.Connection> {
    if |conns| == 0 then None
    else if RegistryKey(conns[|conns| - 1]) == key then Some(conns[|conns| - 1])
    else LastWithKey(conns[..|conns| - 1], key)
  }

  /** Every connection's transport is well formed. */
  predicate AllValid(conns: seq<C.Connection>) {
    forall i :: 0 <= i < |conns| ==> Transport.Valid(conns[i].transport)
  }

  /** The list constructor: every connection `put` under its key, in list order. */
  function Register(conns: seq<C.Connection>): (r: Registry)
    ensures KeysDistinct(r) && |r| <= |conns|
  {
    if |conns| == 0 then []
    else
      var last := conns[|conns| - 1];
      Put(Register(conns[..|conns| - 1]), RegistryKey(last), last)
  }

  /** Registering keeps only given connections, so well-formed transports stay well formed. */
  lemma {:induction false} RegisterValid(conns: seq<C.Connection>)
    requires AllValid(conns)
    ensures forall i :: 0 <= i < |Register(conns)| ==> Transport.Valid(Register(conns)[i].conn.transport)
  {
    if |conns| > 0 {
      var n := |conns| - 1;
      var prefix := conns[..n];
      assert AllValid(prefix) by {
        forall i | 0 <= i < n ensures Transport.Valid(prefix[i].transport) {
          assert prefix[i] == conns[i];
        }
      }
      RegisterValid(prefix);
    }
  }

  /** Every given connection's key is registered. */
  lemma RegisterKeepsKeys(conns: seq<C.Connection>)
    ensures forall i :: 0 <= i < |conns| ==> RegistryKey(conns[i]) in KeysOf(Register(conns))
  {
    forall i | 0 <= i < |conns|
      ensures RegistryKey(conns[i]) in KeysOf(Register(conns))
    {
      RegisterHasKey(conns, i);
    }
  }

  lemma {:induction false} RegisterHasKey(conns: seq<C.Connection>, i: nat)
    requires i < |conns|
    ensures RegistryKey(conns[i]) in KeysOf(Register(conns))
  {
    var n := |conns| - 1;
    var prefix := conns[..n];
    var earlier := Register(prefix);
    var k := RegistryKey(conns[n]);
    assert Register(conns) == Put(earlier, k, conns[n]);
    if i < n {
      assert conns[i] == prefix[i];
      RegisterHasKey(prefix, i);
      assert RegistryKey(conns[i]) in KeysOf(earlier);
      PutKeepsKey(earlier, k, conns[n], RegistryKey(conns[i]));
    } else {
      PutKeepsKey(earlier, k, conns[n], k);
    }
  }

  /** A `put` registers its key and loses none. */
  lemma PutKeepsKey(reg: Registry, key: string, conn: C.Connection, x: string)
    requires KeysDistinct(reg)
    requires x == key || x in KeysOf(reg)
    ensures x in KeysOf(Put(reg, key, conn))
  {
    var ks := KeysOf(Put(reg, key, conn));
    if key !in KeysOf(reg) {
      assert ks == KeysOf(reg) + [key];
      assert ks[|ks| - 1] == key;
    }
  }

  /** Each registered key holds the LAST connection given with that key. */
  lemma {:induction false} RegisterKeepsLast(conns: seq<C.Connection>)
    ensures forall e :: e in Register(conns) ==> e.key == RegistryKey(e.conn) && LastWithKey(conns, e.key) == Some(e.conn)
  {
    if |conns| > 0 {
      var n := |conns| - 1;
      var last := conns[n];
      var k := RegistryKey(last);
      var prefix := conns[..n];
      var earlier := Register(prefix);
      var r := Register(conns);
      assert r == Put(earlier, k, last);
      RegisterKeepsLast(prefix);
      assert LastWithKey(conns, k) == Some(last);
      forall e | e in r
        ensures e.key == RegistryKey(e.conn) && LastWithKey(conns, e.key) == Some(e.conn)
      {
        var i :| 0 <= i < |r| && r[i] == e;
        if k in KeysOf(earlier) {
          assert e == (if earlier[i].key == k then Entry(k, last) else earlier[i]);
        } else {
          assert r == earlier + [Entry(k, last)];
          if i < |earlier| {
            assert e == earlier[i];
            assert e.key in KeysOf(earlier);
          } else {
            assert e == Entry(k, last);
          }
        }
        if e.key != k {
          assert e == earlier[i] && e in earlier;
          assert LastWithKey(conns, e.key) == LastWithKey(prefix, e.key);
        } else {
          assert e == Entry(k, last);
        }
      }
    }
  }

  lemma {:induction false} LastWithKeyIsMember(conns: seq<C.Connection>, key: string)
    ensures LastWithKey(conns, key).Some? ==> LastWithKey(conns, key).value in conns
  {
    if |conns| > 0 && RegistryKey(conns[|conns| - 1]) != key {
      LastWithKeyIsMember(conns[..|conns| - 1], key);
    }
  }

  /** The single-connection constructor. */
  function RegisterOne(c: C.Connection): (r: Registry)
    ensures r == Register([c])
  {
    [Entry(RegistryKey(c), c)]
  }

  /** A key registered again replaces the connection in the first key's place: with
      a1 and a2 sharing a key and b in between, b ends up LAST in iteration order. */
  lemma ReRegistrationKeepsPosition(a1: C.Connection, b: C.Connection, a2: C.Connection)
    requires RegistryKey(a1) == RegistryKey(a2) != RegistryKey(b)
    ensures Register([a1, b, a2]) == [Entry(RegistryKey(a2), a2), Entry(RegistryKey(b), b)]
  {
    var k := RegistryKey(a1);
    var kb := RegistryKey(b);
    assert [a1][..0] == [];
    var r1 := Register([a1]);
    assert r1 == [Entry(k, a1)];
    assert [a1, b][..1] == [a1];
    var r2 := Register([a1, b]);
    assert KeysOf(r1) == [k];
    assert r2 == [Entry(k, a1), Entry(kb, b)];
    assert [a1, b, a2][..2] == [a1, b];
    assert KeysOf(r2) == [k, kb];
    var r3 := Register([a1, b, a2]);
    assert r3 == Put(r2, k, a2);
    assert |r3| == 2 && r3[0] == Entry(k, a2) && r3[1] == Entry(kb, b);
  }

  datatype Service = Service(registry: Registry, retry: int)

  /** `connect()` on one registered connection, with the server's answers for its key. */
  function ConnectEntry(e: Entry, launch: Transport.Launcher, answers: string -> C.ServerAnswers): (r: Result<Entry>)
    requires Transport.Valid(e.conn.transport)
    ensures r.Success? <==> C.Connect(e.conn, launch, answers(e.key)).Success?
    ensures r.Success? ==> r.value == Entry(e.key, C.Connect(e.conn, launch, answers(e.key)).value)
  {
    var connected :- C.Connect(e.conn, launch, answers(e.key));
    Success(Entry(e.key, connected))
  }

  /** Every registered connection connected, in registry order; the first failure ends it. */
  function ConnectAll(reg: Registry, launch: Transport.Launcher, answers: string -> C.ServerAnswers): (r: Result<Registry>)
    requires forall i :: 0 <= i < |reg| ==> Transport.Valid(reg[i].conn.transport)
    ensures r.Success? <==> forall i :: 0 <= i < |reg| ==> ConnectEntry(reg[i], launch, answers).Success?
    ensures r.Success? ==> |r.value| == |reg|
    ensures r.Success? ==> forall i :: 0 <= i < |reg| ==> ConnectEntry(reg[i], launch, answers) == Success(r.value[i])
  {
    if |reg| == 0 then Success([])
    else
      var head := ConnectEntry(reg[0], launch, answers);
      var tail := ConnectAll(reg[1..], launch, answers);
      assert forall i :: 1 <= i < |reg| ==> reg[i] == reg[1..][i - 1];
      if head.Failure? then Failure(head.error)
      else if tail.Failure? then Failure(tail.error)
      else Success([head.value] + tail.value)
  }

  /** The constructor: register, then connect every registered connection in registry order.
      `retry` left out means the default budget of five. */
  function NewService(conns: seq<C.Connection>, retry: Option<int>, launch: Transport.Launcher,
                      answers: string -> C.ServerAnswers): (r: Result<Service>)
    requires AllValid(conns)
    ensures (RegisterValid(conns); r.Success? <==> ConnectAll(Register(conns), launch, answers).Success?)
    ensures (RegisterValid(conns); r.Success? ==> r.value.registry == ConnectAll(Register(conns), launch, answers).value)
    ensures r.Success? ==> KeysOf(r.value.registry) == KeysOf(Register(conns))
    ensures r.Success? ==> r.value.retry == (if retry.Some? then retry.value else 5)
  {
    var reg := Register(conns);
    RegisterValid(conns);
    var connected :- ConnectAll(reg, launch, answers);
    assert KeysOf(connected) == KeysOf(reg);
    Success(Service(connected, retry.GetOr(DefaultRetry)))
  }

  /** Two connections built without a client name or version share the default key
      "default-client/v1.0.0", so only the second one is registered. */
  lemma DefaultIdentitiesCollide(t1: Transport.State, t2: Transport.State)
    ensures Register([C.NewConnection(t1, None, None), C.NewConnection(t2, None, None)])
         == [Entry("default-client/v1.0.0", C.NewConnection(t2, None, None))]
  {
    var a := C.NewConnection(t1, None, None);
    var b := C.NewConnection(t2, None, None);
    assert RegistryKey(a) == RegistryKey(b) == "default-client/v1.0.0";
    assert [a, b][..1] == [a];
    assert [a][..0] == [];
    assert Register([a]) == [Entry(RegistryKey(a), a)];
    assert KeysOf(Register([a])) == [RegistryKey(a)];
  }

  /** A service over two servers that both keep the default identity talks to the second
      one only, with the default budget of five. */
  lemma TwoDefaultServersKeepSecond(t1: Transport.State, t2: Transport.State, launch: Transport.Launcher,
                                    answers: string -> C.ServerAnswers)
    requires Transport.Valid(t1) && Transport.Valid(t2)
    ensures var c2 := C.NewConnection(t2, None, None);
            var r := NewService([C.NewConnection(t1, None, None), c2], None, launch, answers);
            r.Success? ==>
              && r.value.retry == 5
              && C.Connect(c2, launch, answers("default-client/v1.0.0")).Success?
              && r.value.registry == [Entry("default-client/v1.0.0", C.Connect(c2, launch, answers("default-client/v1.0.0")).value)]
  {
    var c1 := C.NewConnection(t1, None, None);
    var c2 := C.NewConnection(t2, None, None);
    DefaultIdentitiesCollide(t1, t2);
    var reg := [Entry("default-client/v1.0.0", c2)];
    assert Register([c1, c2]) == reg;
    var r := NewService([c1, c2], None, launch, answers);
    if r.Success? {
      assert ConnectEntry(reg[0], launch, answers) == Success(r.value.registry[0]);
    }
  }

  /** The key joins name and version with "/v", and different identities can meet in it:
      ("a/v1", "2") and ("a", "1/v2") both give "a/v1/v2". */
  lemma RegistryKeyAmbiguous(t: Transport.State)
    ensures var c1 := C.NewConnection(t, Some("a/v1"), Some("2"));
            var c2 := C.NewConnection(t, Some("a"), Some("1/v2"));
            (c1.clientName, c1.clientVersion) != (c2.clientName, c2.clientVersion) && RegistryKey(c1) == RegistryKey(c2)
  {
    var c1 := C.NewConnection(t, Some("a/v1"), Some("2"));
    var c2 := C.NewConnection(t, Some("a"), Some("1/v2"));
    assert c1.clientName != c2.clientName by { assert |c1.clientName| != |c2.clientName|; }
  }

  // ---------------------------------------------------------------------------
  // Resolution

  /** One tool definition together with the connection offering it. */
  datatype Candidate = Candidate(key: string, conn: C.Connection, def: ToolDefinition)
  datatype Match = Match(key: string, conn: C.Connection, schema: map<string, Json>)

  function CandidatesOf(e: Entry, defs: seq<ToolDefinition>): (cs: seq<Candidate>)
    ensures |cs| == |defs|
    ensures forall i :: 0 <= i < |defs| ==> cs[i] == Candidate(e.key, e.conn, defs[i])
  {
    seq(|defs|, i requires 0 <= i < |defs| => Candidate(e.key, e.conn, defs[i]))
  }

  /** Every definition of every connection, in registry order; a connection without a tool
      catalog offers none. */
  function Candidates(reg: Registry): (r: Result<seq<Candidate>>)
    ensures r.Failure? ==> r.error == MissingRequired
    ensures r.Success? <==> forall i :: 0 <= i < |reg| ==> C.GetToolDefinitions(reg[i].conn).Success?
  {
    if |reg| == 0 then Success([])
    else
      var defs :- C.GetToolDefinitions(reg[0].conn);
      var rest :- Candidates(reg[1..]);
      assert forall i :: 1 <= i < |reg| ==> reg[i] == reg[1..][i - 1];
      Success(CandidatesOf(reg[0], defs.GetOr([])) + rest)
  }

  /** The reference resolution: the index of the last candidate with the name. */
  function LastMatch(cs: seq<Candidate>, name: string): (r: Option<nat>)
    ensures r.Some? ==> r.value < |cs| && cs[r.value].def.name == name
    ensures r.Some? ==> forall j :: r.value < j < |cs| ==> cs[j].def.name != name
    ensures r.None? ==> forall j :: 0 <= j < |cs| ==> cs[j].def.name != name
  {
    if |cs| == 0 then None
    else if cs[|cs| - 1].def.name == name then Some(|cs| - 1)
    else LastMatch(cs[..|cs| - 1], name)
  }

  function MatchOf(c: Candidate): Match {
    Match(c.key, c.conn, c.def.inputSchema)
  }

  /** The last match of `name` in `cs`, or `acc` when there is none. */
  function LastMatchOr(cs: seq<Candidate>, name: string, acc: Option<Match>): Option<Match> {
    match LastMatch(cs, name)
    case Some(k) => Some(MatchOf(cs[k]))
    case None => acc
  }

  /** The inner loop of `findToolsConnection`: every matching definition overwrites the result. */
  function ScanDefs(e: Entry, defs: seq<ToolDefinition>, name: string, acc: Option<Match>): Option<Match>
    decreases |defs|
  {
    if |defs| == 0 then acc
    else
      var acc' := if defs[0].name == name then Some(Match(e.key, e.conn, defs[0].inputSchema)) else acc;
      ScanDefs(e, defs[1..], name, acc')
  }

  /** The outer loop of `findToolsConnection`, over the registry in order. */
  function Scan(reg: Registry, name: string, acc: Option<Match>): Result<Option<Match>>
    decreases |reg|
  {
    if |reg| == 0 then Success(acc)
    else
      var defs :- C.GetToolDefinitions(reg[0].conn);
      Scan(reg[1..], name, ScanDefs(reg[0], defs.GetOr([]), name, acc))
  }

  /** `findToolsConnection`: the connection and schema of the last definition named `name`. */
  function FindToolsConnection(reg: Registry, name: string): (r: Result<Option<Match>>)
    ensures r.Success? <==> Candidates(reg).Success?
    ensures r.Failure? ==> r.error == MissingRequired
    ensures r.Success? ==> r.value == LastMatchOr(Candidates(reg).value, name, None)
  {
    ScanIsLastMatch(reg, name, None);
    Scan(reg, name, None)
  }

  /** Matching over a concatenation: the second part's match, if any, overrides the first's. */
  lemma {:induction false} LastMatchOrAppend(cs1: seq<Candidate>, cs2: seq<Candidate>, name: string, acc: Option<Match>)
    ensures LastMatchOr(cs1 + cs2, name, acc) == LastMatchOr(cs2, name, LastMatchOr(cs1, name, acc))
    decreases |cs2|
  {
    var cs := cs1 + cs2;
    if |cs2| > 0 {
      var n := |cs| - 1;
      assert cs[n] == cs2[|cs2| - 1];
      if cs2[|cs2| - 1].def.name != name {
        assert cs[..n] == cs1 + cs2[..|cs2| - 1];
        LastMatchOrAppend(cs1, cs2[..|cs2| - 1], name, acc);
      }
    } else {
      assert cs == cs1;
    }
  }

  lemma {:induction false} ScanDefsIsLastMatch(e: Entry, defs: seq<ToolDefinition>, name: string, acc: Option<Match>)
    ensures ScanDefs(e, defs, name, acc) == LastMatchOr(CandidatesOf(e, defs), name, acc)
    decreases |defs|
  {
    if |defs| > 0 {
      var head := CandidatesOf(e, defs[..1]);
      var tail := CandidatesOf(e, defs[1..]);
      assert CandidatesOf(e, defs) == head + tail;
      assert LastMatchOr(head, name, acc) ==
        (if defs[0].name == name then Some(Match(e.key, e.conn, defs[0].inputSchema)) else acc);
      ScanDefsIsLastMatch(e, defs[1..], name, LastMatchOr(head, name, acc));
      LastMatchOrAppend(head, tail, name, acc);
    }
  }

  lemma {:induction false} ScanIsLastMatch(reg: Registry, name: string, acc: Option<Match>)
    ensures Scan(reg, name, acc).Success? <==> Candidates(reg).Success?
    ensures Scan(reg, name, acc).Failure? ==> Scan(reg, name, acc) == Failure(MissingRequired)
    ensures Scan(reg, name, acc).Success? ==> Scan(reg, name, acc).value == LastMatchOr(Candidates(reg).value, name, acc)
    decreases |reg|
  {
    if |reg| > 0 {
      var d := C.GetToolDefinitions(reg[0].conn);
      if d.Success? {
        var head := CandidatesOf(reg[0], d.value.GetOr([]));
        ScanDefsIsLastMatch(reg[0], d.value.GetOr([]), name, acc);
        ScanIsLastMatch(reg[1..], name, LastMatchOr(head, name, acc));
        if Candidates(reg[1..]).Success? {
          LastMatchOrAppend(head, Candidates(reg[1..]).value, name, acc);
        }
      }
    }
  }

  /** Resolution finds a tool exactly when some connection offers it, and picks the last
      offering connection in registry order. */
  lemma ResolutionCharacterised(reg: Registry, name: string)
    requires Candidates(reg).Success?
    ensures var cs := Candidates(reg).value;
      var r := FindToolsConnection(reg, name);
      && r.Success?
      && (r.value.None? <==> forall j :: 0 <= j < |cs| ==> cs[j].def.name != name)
      && (r.value.Some? ==> exists k :: 0 <= k < |cs| && cs[k].def.name == name && r.value.value == MatchOf(cs[k]) &&
                             forall j :: k < j < |cs| ==> cs[j].def.name != name)
  {
    var cs := Candidates(reg).value;
    var k := LastMatch(cs, name);
    if k.Some? {
      assert cs[k.value].def.name == name;
    }
  }

  /** The tie-break: when the last registered connection offers the name, it wins, with
      the schema of its last definition of that name. */
  lemma {:induction false} LastConnectionWins(reg: Registry, name: string, defs: seq<ToolDefinition>)
    requires |reg| > 0 && Candidates(reg).Success?
    requires C.GetToolDefinitions(reg[|reg| - 1].conn) == Success(Some(defs))
    requires exists i :: 0 <= i < |defs| && defs[i].name == name
    ensures var r := FindToolsConnection(reg, name);
      r.Success? && r.value.Some? && r.value.value.key == reg[|reg| - 1].key && r.value.value.conn == reg[|reg| - 1].conn
    ensures exists k ::
      && 0 <= k < |defs| && defs[k].name == name
      && (forall j :: k < j < |defs| ==> defs[j].name != name)
      && FindToolsConnection(reg, name).value.value.schema == defs[k].inputSchema
  {
    var n := |reg| - 1;
    assert reg[..n] + reg[n..] == reg;
    CandidatesSplit(reg[..n], reg[n..]);
    assert reg[n..] == [reg[n]];
    CandidatesOne(reg[n]);
    var cs1 := Candidates(reg[..n]).value;
    var cs2 := CandidatesOf(reg[n], defs);
    assert Candidates(reg).value == cs1 + cs2;
    LastMatchOrAppend(cs1, cs2, name, None);
    var i :| 0 <= i < |defs| && defs[i].name == name;
    assert cs2[i].def.name == name;
    var k := LastMatch(cs2, name).value;
    assert FindToolsConnection(reg, name).value == Some(MatchOf(cs2[k]));
    assert cs2[k] == Candidate(reg[n].key, reg[n].conn, defs[k]);
    assert forall j :: k < j < |defs| ==> cs2[j].def.name != name;
  }

  /** Candidates of a split registry are the concatenation of the parts' candidates. */
  lemma {:induction false} CandidatesSplit(r1: Registry, r2: Registry)
    requires Candidates(r1 + r2).Success?
    ensures Candidates(r1).Success? && Candidates(r2).Success?
    ensures Candidates(r1 + r2).value == Candidates(r1).value + Candidates(r2).value
    decreases |r1|
  {
    var reg := r1 + r2;
    if |r1| == 0 {
      assert reg == r2;
    } else {
      assert reg[1..] == r1[1..] + r2;
      assert reg[0] == r1[0];
      CandidatesSplit(r1[1..], r2);
    }
  }

  // ---------------------------------------------------------------------------
  // Argument check

  /** `listOf(callToolParams.keys).toString()`. */
  function RenderCallKeys(keys: seq<string>): (r: string)
    ensures (ShowStrArray(keys); r == "[[" + Join(keys, ", ") + "]]")
  {
    var shown := Show(StrArray(keys));
    ShowStrArray(keys);
    assert "[" + shown + "]" == "[[" + Join(keys, ", ") + "]]";
    "[" + shown + "]"
  }

  /** `listOf(toolParams?.get("required")).toString()`. */
  function RenderRequired(schema: map<string, Json>): (r: string)
    ensures "required" !in schema || schema["required"] == JNull ==> r == "[null]"
    ensures "required" in schema && schema["required"].JArr? ==> |r| >= 4 && r[1] == '[' && r[|r| - 2..] == "]]"
  {
    var shown := if "required" in schema then Show(schema["required"]) else "null";
    assert "required" in schema && schema["required"].JArr? ==>
      |shown| >= 2 && shown[0] == '[' && shown[|shown| - 1] == ']';
    "[" + shown + "]"
  }

  /** `compareParams`: the two rendered lists are the same text. A schema with no or a null
      `required` rejects every call; argument keys that are exactly the `required` list, in
      the same order, always pass. */
  function ParamsMatch(schema: map<string, Json>, keys: seq<string>): (b: bool)
    ensures b ==> "required" in schema && schema["required"] != JNull
    ensures "required" in schema && schema["required"] == StrArray(keys) ==> b
  {
    var call := RenderCallKeys(keys);
    var required := RenderRequired(schema);
    assert ("required" !in schema || schema["required"] == JNull) ==> call[1] != required[1];
    call == required
  }

  lemma ShowStrArray(names: seq<string>)
    ensures Show(StrArray(names)) == "[" + Join(names, ", ") + "]"
  {
    var items := StrArray(names).items;
    var shown := seq(|items|, i requires 0 <= i < |items| => Show(items[i]));
    assert shown == names;
  }

  /** For non-empty comma-free names the check is exact, order-sensitive list equality:
      a missing, extra or reordered key fails. */
  lemma MatchIsListEquality(schema: map<string, Json>, keys: seq<string>, required: seq<string>)
    requires "required" in schema && schema["required"] == StrArray(required)
    requires CommaFree(keys) && CommaFree(required)
    ensures ParamsMatch(schema, keys) <==> keys == required
  {
    ShowStrArray(keys);
    ShowStrArray(required);
    if ParamsMatch(schema, keys) {
      var a := Join(keys, ", ");
      var b := Join(required, ", ");
      assert "[" + ("[" + a + "]") + "]" == "[" + ("[" + b + "]") + "]";
      assert a == ("[" + ("[" + a + "]") + "]")[2..|a| + 2];
      assert a == b;
      JoinInjective(keys, required);
    }
  }

  /** The text comparison is not list equality: the single key "a, b" passes for ["a", "b"],
      and no keys pass for [""]. */
  lemma RenderingCollisions(schema: map<string, Json>, schema': map<string, Json>)
    requires "required" in schema && schema["required"] == StrArray(["a", "b"])
    requires "required" in schema' && schema'["required"] == StrArray([""])
    ensures ParamsMatch(schema, ["a, b"])
    ensures ParamsMatch(schema', [])
  {
    ShowStrArray(["a, b"]);
    ShowStrArray(["a", "b"]);
    ShowStrArray([""]);
    ShowStrArray([]);
    assert ["a", "b"][1..] == ["b"];
    assert Join(["a", "b"], ", ") == "a, b";
  }

  /** Arguments {a, b} against required [a, b, c] are rejected: a missing key fails the comparison. */
  lemma MissingKeyRejected(schema: map<string, Json>)
    requires "required" in schema && schema["required"] == StrArray(["a", "b", "c"])
    ensures !ParamsMatch(schema, ["a", "b"])
  {
    MatchIsListEquality(schema, ["a", "b"], ["a", "b", "c"]);
  }

  // ---------------------------------------------------------------------------
  // One tool call

  /** A function call proposed by the chat model; arguments are the parsed JSON object.
      The parsed object never repeats a key; nothing below relies on that. */
  datatype ToolCall = ToolCall(id: string, name: string, args: seq<Field>)

  /** The tool servers: the result of calling a tool of the connection registered under a key. */
  type ToolServer = (string, string, seq<Field>) -> C.CallOutcome

  /** The text of the synthetic message announcing a call. */
  function RequestText(call: ToolCall): (r: string)
    ensures |r| >= 28 + |call.name|
    ensures r[..15] == "[ Calling tool " && r[15..15 + |call.name|] == call.name
    ensures r[15 + |call.name|..26 + |call.name|] == " with args " && r[|r| - 2..] == " ]"
  {
    var head := "[ Calling tool " + call.name + " with args ";
    var r := head + Show(JObj(call.args)) + " ]";
    assert |head| == 26 + |call.name| && r[..|head|] == head;
    r
  }

  /** `callTool`: resolve, check the keys, then append the request and the formatted result.
      `false` (unknown tool or key mismatch) leaves the conversation as it was. */
  function CallTool(reg: Registry, call: ToolCall, prompt: Builder, server: ToolServer): (r: Result<(Builder, bool)>)
    ensures r.Success? && !r.value.1 ==> r.value.0 == prompt
    ensures FindToolsConnection(reg, call.name).Failure? ==> r == Failure(MissingRequired)
    ensures FindToolsConnection(reg, call.name) == Success(None) ==> r == Success((prompt, false))
    ensures var f := FindToolsConnection(reg, call.name);
      f.Success? && f.value.Some? && !ParamsMatch(f.value.value.schema, Keys(call.args)) ==> r == Success((prompt, false))
    ensures var f := FindToolsConnection(reg, call.name);
      f.Success? && f.value.Some? && ParamsMatch(f.value.value.schema, Keys(call.args)) ==>
        var outcome := server(f.value.value.key, call.name, call.args);
        && (r.Success? <==> outcome.Returned? && C.ExtractTextForLLM(call.name, outcome.result).Success?)
        && (r.Success? ==> r.value.1)
        && (outcome.Raised? ==> r == Failure(ToolInvocationFailed))
        && (outcome.Returned? && C.ExtractTextForLLM(call.name, outcome.result).Failure? ==> r == Failure(NotTextContent))
    ensures r.Success? && r.value.1 ==>
      var m := FindToolsConnection(reg, call.name).value.value;
      var outcome := server(m.key, call.name, call.args);
      && ParamsMatch(m.schema, Keys(call.args))
      && outcome.Returned?
      && C.ExtractTextForLLM(call.name, outcome.result).Success?
      && r.value.0.toolDefinitions == prompt.toolDefinitions
      && r.value.0.messages == prompt.messages + [
           ToolMessage(call.id, Some(RequestText(call))),
           ToolMessage(call.id, Some(C.ExtractTextForLLM(call.name, outcome.result).value))]
  {
    var found :- FindToolsConnection(reg, call.name);
    if found.None? then Success((prompt, false))
    else if !ParamsMatch(found.value.schema, Keys(call.args)) then Success((prompt, false))
    else
      var m := found.value;
      var requested := AppendToolMessage(prompt, call.id, Some(RequestText(call)));
      var result :- C.CallTool((n, a) => server(m.key, n, a), call.name, Some(call.args));
      var response :- C.ExtractTextForLLM(call.name, result);
      Success((AppendToolMessage(requested, call.id, Some(response)), true))
  }

  /** The tool-result message a successful call appends reads back as the tool's output. */
  lemma CalledResultReadsBack(reg: Registry, call: ToolCall, prompt: Builder, server: ToolServer)
    requires CallTool(reg, call, prompt, server).Success? && CallTool(reg, call, prompt, server).value.1
    ensures var q := CallTool(reg, call, prompt, server).value.0;
      var last := q.messages[|q.messages| - 1];
      var m := FindToolsConnection(reg, call.name).value.value;
      last.ToolMessage? && last.toolCallId == call.id && last.toolContent.Some? &&
      C.ParseToolResult(call.name, last.toolContent.value) ==
        Some(C.ExtractText(server(m.key, call.name, call.args).result).value.GetOr("null"))
  {
    var m := FindToolsConnection(reg, call.name).value.value;
    C.ToolResultRoundTrip(call.name, C.ExtractText(server(m.key, call.name, call.args).result).value.GetOr("null"));
  }

  // ---------------------------------------------------------------------------
  // Advertised tools and the other catalogs

  function DefsOf(cs: seq<Candidate>): (ds: seq<ToolDefinition>)
    ensures |ds| == |cs| && forall i :: 0 <= i < |cs| ==> ds[i] == cs[i].def
  {
    seq(|cs|, i requires 0 <= i < |cs| => cs[i].def)
  }

  function AddAll(prompt: Builder, defs: seq<ToolDefinition>): (r: Builder)
    ensures r.messages == prompt.messages && r.toolDefinitions == prompt.toolDefinitions + defs
    decreases |defs|
  {
    if |defs| == 0 then prompt
    else
      assert [defs[0]] + defs[1..] == defs;
      AddAll(AddTool(prompt, defs[0]), defs[1..])
  }

  /** `addToolsToPrompt`: every connection's definitions, in registry order, after the
      ones already there. */
  function AddToolsToPrompt(reg: Registry, prompt: Builder): (r: Result<Builder>)
    ensures r.Success? <==> Candidates(reg).Success?
    ensures r.Failure? ==> r.error == MissingRequired
    ensures r.Success? ==> r.value.messages == prompt.messages
    ensures r.Success? ==> r.value.toolDefinitions == prompt.toolDefinitions + DefsOf(Candidates(reg).value)
    decreases |reg|
  {
    if |reg| == 0 then Success(prompt)
    else
      var d := C.GetToolDefinitions(reg[0].conn);
      CandidatesUnfold(reg);
      if d.Failure? then Failure(d.error)
      else
        var defs := d.value.GetOr([]);
        var r := AddToolsToPrompt(reg[1..], AddAll(prompt, defs));
        if r.Failure? then r
        else
          DefsOfCandidates(reg[0], defs, Candidates(reg[1..]).value);
          r
  }

  /** A single connection offers exactly its own definitions, in their order. */
  lemma CandidatesOne(e: Entry)
    ensures Candidates([e]).Success? <==> C.GetToolDefinitions(e.conn).Success?
    ensures Candidates([e]).Success? ==>
      Candidates([e]).value == CandidatesOf(e, C.GetToolDefinitions(e.conn).value.GetOr([]))
  {
    assert [e][1..] == [];
  }

  /** One step of `Candidates`: the first connection's definitions, then the rest's. */
  lemma CandidatesUnfold(reg: Registry)
    requires |reg| > 0
    ensures Candidates(reg).Success? <==>
      C.GetToolDefinitions(reg[0].conn).Success? && Candidates(reg[1..]).Success?
    ensures Candidates(reg).Success? ==>
      Candidates(reg).value == CandidatesOf(reg[0], C.GetToolDefinitions(reg[0].conn).value.GetOr([])) + Candidates(reg[1..]).value
  {
  }

  lemma DefsOfCandidates(e: Entry, defs: seq<ToolDefinition>, rest: seq<Candidate>)
    ensures DefsOf(CandidatesOf(e, defs) + rest) == defs + DefsOf(rest)
  {
    assert DefsOf(CandidatesOf(e, defs) + rest) == DefsOf(CandidatesOf(e, defs)) + DefsOf(rest);
  }

  /** Concatenation of the non-null catalogs, in order; null catalogs are skipped. */
  function Gather<T>(catalogs: seq<Option<seq<T>>>): (r: seq<T>)
    ensures forall i, x :: 0 <= i < |catalogs| && catalogs[i].Some? && x in catalogs[i].value ==> x in r
    ensures forall x :: x in r ==> exists i :: 0 <= i < |catalogs| && catalogs[i].Some? && x in catalogs[i].value
    ensures |catalogs| == 1 ==> r == catalogs[0].GetOr([])
  {
    if |catalogs| == 0 then []
    else
      var rest := Gather(catalogs[1..]);
      assert forall i :: 1 <= i < |catalogs| ==> catalogs[i] == catalogs[1..][i - 1];
      catalogs[0].GetOr([]) + rest
  }

  /** Gathering respects the order of the catalogs. */
  lemma {:induction false} GatherAppend<T>(c1: seq<Option<seq<T>>>, c2: seq<Option<seq<T>>>)
    ensures Gather(c1 + c2) == Gather(c1) + Gather(c2)
    decreases |c1|
  {
    if |c1| > 0 {
      assert (c1 + c2)[1..] == c1[1..] + c2;
      GatherAppend(c1[1..], c2);
    } else {
      assert c1 + c2 == c2;
    }
  }

  function PromptCatalogs(reg: Registry): (cs: seq<Option<seq<C.Prompt>>>)
    ensures |cs| == |reg| && forall i :: 0 <= i < |reg| ==> cs[i] == reg[i].conn.prompts
  {
    seq(|reg|, i requires 0 <= i < |reg| => reg[i].conn.prompts)
  }

  function ResourceCatalogs(reg: Registry): (cs: seq<Option<seq<C.Resource>>>)
    ensures |cs| == |reg| && forall i :: 0 <= i < |reg| ==> cs[i] == reg[i].conn.resources
  {
    seq(|reg|, i requires 0 <= i < |reg| => reg[i].conn.resources)
  }

  /** `loadPrompts`. */
  function LoadPrompts(reg: Registry): (r: seq<C.Prompt>)
    ensures forall i, p :: 0 <= i < |reg| && reg[i].conn.prompts.Some? && p in reg[i].conn.prompts.value ==> p in r
    ensures forall p :: p in r ==> exists i :: 0 <= i < |reg| && reg[i].conn.prompts.Some? && p in reg[i].conn.prompts.value
    ensures |reg| == 1 ==> r == reg[0].conn.prompts.GetOr([])
  {
    Gather(PromptCatalogs(reg))
  }

  /** `fetchResources`. */
  function FetchResources(reg: Registry): (r: seq<C.Resource>)
    ensures forall i, x :: 0 <= i < |reg| && reg[i].conn.resources.Some? && x in reg[i].conn.resources.value ==> x in r
    ensures forall x :: x in r ==> exists i :: 0 <= i < |reg| && reg[i].conn.resources.Some? && x in reg[i].conn.resources.value
    ensures |reg| == 1 ==> r == reg[0].conn.resources.GetOr([])
  {
    Gather(ResourceCatalogs(reg))
  }

  /** Prompts come out grouped by connection, in registry order. */
  lemma LoadPromptsInRegistryOrder(r1: Registry, r2: Registry)
    ensures LoadPrompts(r1 + r2) == LoadPrompts(r1) + LoadPrompts(r2)
  {
    assert PromptCatalogs(r1 + r2) == PromptCatalogs(r1) + PromptCatalogs(r2);
    GatherAppend(PromptCatalogs(r1), PromptCatalogs(r2));
  }

  lemma FetchResourcesInRegistryOrder(r1: Registry, r2: Registry)
    ensures FetchResources(r1 + r2) == FetchResources(r1) + FetchResources(r2)
  {
    assert ResourceCatalogs(r1 + r2) == ResourceCatalogs(r1) + ResourceCatalogs(r2);
    GatherAppend(ResourceCatalogs(r1), ResourceCatalogs(r2));
  }

  // ---------------------------------------------------------------------------
  // The agent loop

  datatype ToolCallItem = FunctionCall(call: ToolCall) | OtherToolCall
  datatype Choice = Choice(toolCalls: Option<seq<ToolCallItem>>)
  /** One answer of the chat model: its choices, or an exception. */
  datatype Response = Answered(choices: seq<Choice>) | QueryRaised

  /** The first tool call of the first choice, if it is a function call. */
  function FirstToolCall(resp: Response): (r: Result<Option<ToolCall>>)
    ensures resp.QueryRaised? ==> r == Failure(ModelQueryFailed)
    ensures resp.Answered? && resp.choices == [] ==> r == Failure(NoChoices)
    ensures resp.Answered? && resp.choices != [] ==> r.Success?
    ensures r.Success? && r.value.Some? ==>
      var calls := resp.choices[0].toolCalls;
      calls.Some? && |calls.value| > 0 && calls.value[0] == FunctionCall(r.value.value)
    ensures r.Success? && r.value.None? ==>
      var calls := resp.choices[0].toolCalls;
      calls.None? || calls.value == [] || calls.value[0].OtherToolCall?
  {
    match resp
    case QueryRaised => Failure(ModelQueryFailed)
    case Answered(choices) =>
      if |choices| == 0 then Failure(NoChoices)
      else
        var calls := choices[0].toolCalls;
        if calls.Some? && |calls.value| > 0 && calls.value[0].FunctionCall? then Success(Some(calls.value[0].call))
        else Success(None)
  }

  datatype LoopExit =
    | ToolCalled(prompt: Builder, turn: nat)          // the response at `turn` was called successfully
    | RetriesExhausted(prompt: Builder, turns: nat)   // the attempts counter reached the budget
    | ResponsesRanOut(prompt: Builder, attempts: nat) // the chat model gave no further response

  /** A turn without a tool call. */
  predicate NoCall(resp: Response) {
    FirstToolCall(resp) == Success(None)
  }

  /** A turn whose tool call was refused (unknown tool or key mismatch). */
  predicate FailedCall(reg: Registry, prompt: Builder, resp: Response, server: ToolServer) {
    var c := FirstToolCall(resp);
    c.Success? && c.value.Some? && CallTool(reg, c.value.value, prompt, server) == Success((prompt, false))
  }

  /** A turn that raised: building the request failed, the model query failed, or the
      proposed call raised. */
  predicate Raised(reg: Registry, prompt: Builder, resp: Response, server: ToolServer) {
    var c := FirstToolCall(resp);
    Build(prompt).Failure? || c.Failure? || (c.value.Some? && CallTool(reg, c.value.value, prompt, server).Failure?)
  }

  /** The turns before `n` were sent (the request built) and neither succeeded nor raised. */
  predicate Unresolved(reg: Registry, prompt: Builder, responses: seq<Response>, n: nat, server: ToolServer)
    requires n <= |responses|
  {
    n == 0 ||
    (Unresolved(reg, prompt, responses, n - 1, server) && Build(prompt).Success? &&
     (NoCall(responses[n - 1]) || FailedCall(reg, prompt, responses[n - 1], server)))
  }

  /** Read turn by turn: each turn before `n` built its request and had no call or a refused call. */
  lemma {:induction false} UnresolvedBefore(reg: Registry, prompt: Builder, responses: seq<Response>, n: nat, j: nat, server: ToolServer)
    requires n <= |responses| && Unresolved(reg, prompt, responses, n, server) && j < n
    ensures Build(prompt).Success?
    ensures NoCall(responses[j]) || FailedCall(reg, prompt, responses[j], server)
  {
    if j < n - 1 {
      UnresolvedBefore(reg, prompt, responses, n - 1, j, server);
    }
  }

  /** The attempts counter after `n` turns is `a`: the last `a` turns had no tool call and
      the turn before them, if any, was a refused call. */
  predicate CounterIs(reg: Registry, prompt: Builder, responses: seq<Response>, n: nat, a: nat, server: ToolServer)
    requires n <= |responses|
  {
    && a <= n
    && (forall j :: n - a <= j < n ==> NoCall(responses[j]))
    && (a < n ==> FailedCall(reg, prompt, responses[n - a - 1], server))
  }

  /** The attempts counter after the first `n` turns, as the loop updates it: one more after
      a turn without a tool call, back to zero after any other turn. */
  function Attempts(responses: seq<Response>, n: nat): nat
    requires n <= |responses|
  {
    if n == 0 then 0
    else if NoCall(responses[n - 1]) then Attempts(responses, n - 1) + 1
    else 0
  }

  /** The loop condition `attempts < retry` held before each of the first `n` turns. */
  predicate StayedBelow(responses: seq<Response>, n: nat, retry: int)
    requires n <= |responses| + 1
  {
    n == 0 || (StayedBelow(responses, n - 1, retry) && Attempts(responses, n - 1) < retry)
  }

  /** Read turn by turn: before every turn `m < n` the counter was below the budget. */
  lemma {:induction false} StayedBelowBefore(responses: seq<Response>, n: nat, retry: int, m: nat)
    requires n <= |responses| + 1 && StayedBelow(responses, n, retry) && m < n
    ensures Attempts(responses, m) < retry
  {
    if m < n - 1 {
      StayedBelowBefore(responses, n - 1, retry, m);
    }
  }

  /** A turn without a tool call counts one more attempt. */
  lemma NoCallStep(reg: Registry, p: Builder, responses: seq<Response>, i: nat, server: ToolServer)
    requires i < |responses| && NoCall(responses[i]) && Build(p).Success?
    requires Unresolved(reg, p, responses, i, server)
    ensures Unresolved(reg, p, responses, i + 1, server)
    ensures Attempts(responses, i + 1) == Attempts(responses, i) + 1
  {
  }

  /** A refused call starts the count again. */
  lemma RefusedStep(reg: Registry, p: Builder, responses: seq<Response>, i: nat, server: ToolServer)
    requires i < |responses| && FailedCall(reg, p, responses[i], server) && Build(p).Success?
    requires Unresolved(reg, p, responses, i, server)
    ensures Unresolved(reg, p, responses, i + 1, server)
    ensures Attempts(responses, i + 1) == 0
  {
  }

  /** The loop condition held before turn `i` too. */
  lemma StayedBelowStep(responses: seq<Response>, i: nat, retry: int)
    requires i <= |responses| && StayedBelow(responses, i, retry) && Attempts(responses, i) < retry
    ensures StayedBelow(responses, i + 1, retry)
  {
  }

  /** The turn-by-turn counter agrees with the declarative reading of it. */
  lemma {:induction false} CounterIsAttempts(reg: Registry, p: Builder, responses: seq<Response>, n: nat, server: ToolServer)
    requires n <= |responses| && Unresolved(reg, p, responses, n, server)
    ensures CounterIs(reg, p, responses, n, Attempts(responses, n), server)
  {
    if n > 0 {
      assert Unresolved(reg, p, responses, n - 1, server);
      CounterIsAttempts(reg, p, responses, n - 1, server);
      if !NoCall(responses[n - 1]) {
        assert FailedCall(reg, p, responses[n - 1], server);
      }
    }
  }

  /** The declarative reading fixes the counter: a refused call is never a turn without a call. */
  lemma CounterUnique(reg: Registry, p: Builder, responses: seq<Response>, n: nat, a: nat, b: nat, server: ToolServer)
    requires n <= |responses|
    requires CounterIs(reg, p, responses, n, a, server) && CounterIs(reg, p, responses, n, b, server)
    ensures a == b
  {
    var m := if a < b then a else b;
    if m < n {
      RefusedIsACall(reg, p, responses[n - m - 1], server);
    }
  }

  lemma RefusedIsACall(reg: Registry, p: Builder, resp: Response, server: ToolServer)
    ensures FailedCall(reg, p, resp, server) ==> !NoCall(resp)
  {
  }

  /** How one turn of the loop ends. */
  datatype TurnOutcome =
    | NoToolCall               // the response proposes no function call
    | Refused                  // the call named an unknown tool or had the wrong keys
    | Called(prompt: Builder)  // the call went through
    | Threw(error: Error)      // building the request, the model query or the tool raised

  /** One turn: build the request from `p` (with its tools), take the first tool call of
      the response and try it. */
  function Turn(reg: Registry, p: Builder, resp: Response, server: ToolServer): (t: TurnOutcome)
    ensures Build(p).Failure? ==> t == Threw(Build(p).error)
    ensures t.NoToolCall? <==> Build(p).Success? && NoCall(resp)
    ensures t.Refused? <==> Build(p).Success? && FailedCall(reg, p, resp, server)
    ensures t.Threw? <==> Raised(reg, p, resp, server)
    ensures Build(p).Success? && FirstToolCall(resp).Failure? ==> t == Threw(FirstToolCall(resp).error)
    ensures t.Called? ==>
      var c := FirstToolCall(resp);
      Build(p).Success? && c.Success? && c.value.Some? && CallTool(reg, c.value.value, p, server) == Success((t.prompt, true))
    ensures t.Threw? && Build(p).Success? && FirstToolCall(resp).Success? ==>
      var c := FirstToolCall(resp);
      c.value.Some? && CallTool(reg, c.value.value, p, server) == Failure(t.error)
  {
    if Build(p).Failure? then Threw(Build(p).error) else
    match FirstToolCall(resp)
    case Failure(e) => Threw(e)
    case Success(None) => NoToolCall
    case Success(Some(call)) =>
      match CallTool(reg, call, p, server)
      case Failure(e) => Threw(e)
      case Success(outcome) => if outcome.1 then Called(outcome.0) else Refused
  }

  /** How the loop over the conversation `p` (tools already added) may end. Every exit is
      at the first turn the source would stop at: before each turn it reached, the attempts
      counter was still below the budget.
      - A failure is the exception of turn k; when the request does not build, the first
        turn raises before any response is read.
      - A tool call is accepted at turn k.
      - The budget is spent after n turns, with the prompt unchanged.
      - The responses run out. */
  predicate LoopExits(service: Service, p: Builder, responses: seq<Response>, server: ToolServer, r: Result<LoopExit>) {
    && (service.retry <= 0 ==> r == Success(RetriesExhausted(p, 0)))
    && (service.retry > 0 && Build(p).Failure? ==> r == Failure(Build(p).error))
    && (r.Failure? && Build(p).Success? ==>
          exists k :: 0 <= k < |responses| && Unresolved(service.registry, p, responses, k, server) &&
            StayedBelow(responses, k + 1, service.retry) && Turn(service.registry, p, responses[k], server) == Threw(r.error))
    && (r.Success? && r.value.ToolCalled? ==>
          var k := r.value.turn;
          && k < |responses| && Unresolved(service.registry, p, responses, k, server)
          && StayedBelow(responses, k + 1, service.retry)
          && FirstToolCall(responses[k]).Success? && FirstToolCall(responses[k]).value.Some?
          && CallTool(service.registry, FirstToolCall(responses[k]).value.value, p, server) == Success((r.value.prompt, true)))
    && (r.Success? && r.value.RetriesExhausted? ==>
          var n := r.value.turns;
          && r.value.prompt == p && n <= |responses|
          && Unresolved(service.registry, p, responses, n, server)
          && StayedBelow(responses, n, service.retry)
          && Attempts(responses, n) >= service.retry
          && (service.retry > 0 ==> Attempts(responses, n) == service.retry))
    && (r.Success? && r.value.ResponsesRanOut? ==>
          && r.value.prompt == p
          && Unresolved(service.registry, p, responses, |responses|, server)
          && StayedBelow(responses, |responses| + 1, service.retry)
          && r.value.attempts == Attempts(responses, |responses|))
  }

  /** The loop's exits, one lemma each. */
  lemma BuildFailedExit(service: Service, p: Builder, responses: seq<Response>, server: ToolServer)
    requires service.retry > 0 && Build(p).Failure?
    ensures LoopExits(service, p, responses, server, Failure(Build(p).error))
  {
  }

  lemma ThrewExit(service: Service, p: Builder, responses: seq<Response>, server: ToolServer, k: nat, e: Error)
    requires service.retry > 0 && k < |responses| && Build(p).Success?
    requires Unresolved(service.registry, p, responses, k, server) && StayedBelow(responses, k + 1, service.retry)
    requires Turn(service.registry, p, responses[k], server) == Threw(e)
    ensures LoopExits(service, p, responses, server, Failure(e))
  {
  }

  lemma CalledExit(service: Service, p: Builder, responses: seq<Response>, server: ToolServer, k: nat, q: Builder)
    requires service.retry > 0 && k < |responses|
    requires Unresolved(service.registry, p, responses, k, server) && StayedBelow(responses, k + 1, service.retry)
    requires Turn(service.registry, p, responses[k], server) == Called(q)
    ensures LoopExits(service, p, responses, server, Success(ToolCalled(q, k)))
  {
  }

  lemma RanOutExit(service: Service, p: Builder, responses: seq<Response>, server: ToolServer)
    requires service.retry > 0 && Build(p).Success?
    requires Unresolved(service.registry, p, responses, |responses|, server)
    requires StayedBelow(responses, |responses| + 1, service.retry)
    ensures LoopExits(service, p, responses, server, Success(ResponsesRanOut(p, Attempts(responses, |responses|))))
  {
  }

  lemma ExhaustedExit(service: Service, p: Builder, responses: seq<Response>, server: ToolServer, n: nat)
    requires n <= |responses| && (Build(p).Success? || service.retry <= 0)
    requires service.retry <= 0 ==> n == 0
    requires Unresolved(service.registry, p, responses, n, server) && StayedBelow(responses, n, service.retry)
    requires Attempts(responses, n) >= service.retry
    requires service.retry > 0 ==> Attempts(responses, n) == service.retry
    ensures LoopExits(service, p, responses, server, Success(RetriesExhausted(p, n)))
  {
  }

  /** The loop of `updateWithToolCall` over the conversation `p` that already lists the tools. */
  method AskUntilCalled(service: Service, p: Builder, responses: seq<Response>, server: ToolServer)
    returns (r: Result<LoopExit>)
    ensures LoopExits(service, p, responses, server, r)
  {
    var attempts: nat := 0;
    var i := 0;
    while attempts < service.retry
      invariant 0 <= i <= |responses|
      invariant attempts == Attempts(responses, i)
      invariant attempts == 0 || attempts <= service.retry
      invariant service.retry <= 0 ==> i == 0
      invariant Unresolved(service.registry, p, responses, i, server)
      invariant StayedBelow(responses, i, service.retry)
      decreases |responses| - i
    {
      StayedBelowStep(responses, i, service.retry);
      if Build(p).Failure? {
        BuildFailedExit(service, p, responses, server);
        return Failure(Build(p).error);
      }
      if i == |responses| {
        RanOutExit(service, p, responses, server);
        return Success(ResponsesRanOut(p, attempts));
      }
      match Turn(service.registry, p, responses[i], server) {
        case Threw(e) =>
          ThrewExit(service, p, responses, server, i, e);
          return Failure(e);
        case Called(q) =>
          CalledExit(service, p, responses, server, i, q);
          return Success(ToolCalled(q, i));
        case NoToolCall =>
          NoCallStep(service.registry, p, responses, i, server);
          attempts := attempts + 1;
        case Refused =>
          RefusedStep(service.registry, p, responses, i, server);
          attempts := 0;
      }
      i := i + 1;
    }
    ExhaustedExit(service, p, responses, server, i);
    return Success(RetriesExhausted(p, i));
  }

  /** `updateWithToolCall`: add every tool to the conversation, then ask until a call succeeds,
      the budget is spent or the responses run out. */
  method UpdateWithToolCall(service: Service, prompt: Builder, responses: seq<Response>, server: ToolServer)
    returns (r: Result<LoopExit>)
    ensures AddToolsToPrompt(service.registry, prompt).Failure? ==> r == Failure(MissingRequired)
    ensures r.Success? ==> AddToolsToPrompt(service.registry, prompt).Success?
    ensures AddToolsToPrompt(service.registry, prompt).Success? ==>
      LoopExits(service, AddToolsToPrompt(service.registry, prompt).value, responses, server, r)
  {
    var p :- AddToolsToPrompt(service.registry, prompt);
    r := AskUntilCalled(service, p, responses, server);
  }

  /** When no turn proposes a call, the counter is the number of turns. */
  lemma {:induction false} AttemptsWithoutCalls(responses: seq<Response>, n: nat)
    requires n <= |responses|
    requires forall j :: 0 <= j < |responses| ==> NoCall(responses[j])
    ensures Attempts(responses, n) == n
  {
    if n > 0 {
      AttemptsWithoutCalls(responses, n - 1);
    }
  }

  /** When every turn proposes a refused call, the counter stays at zero. */
  lemma AttemptsWithRefusals(reg: Registry, p: Builder, responses: seq<Response>, n: nat, server: ToolServer)
    requires n <= |responses|
    requires forall j :: 0 <= j < |responses| ==> FailedCall(reg, p, responses[j], server)
    ensures Attempts(responses, n) == 0
  {
    if n > 0 {
      assert FailedCall(reg, p, responses[n - 1], server);
    }
  }

  /** With a budget of `retry` and a chat model that never proposes a tool, the loop asks
      exactly `retry` times and returns the conversation with only the tools added. (When
      that conversation does not build, `UnbuildableToolsRaise` applies instead.) */
  method NeverCalledExhausts(service: Service, prompt: Builder, responses: seq<Response>, server: ToolServer)
    returns (r: Result<LoopExit>)
    requires 0 <= service.retry <= |responses|
    requires forall j :: 0 <= j < |responses| ==> NoCall(responses[j])
    requires AddToolsToPrompt(service.registry, prompt).Success?
    requires Build(AddToolsToPrompt(service.registry, prompt).value).Success?
    ensures r == Success(RetriesExhausted(AddToolsToPrompt(service.registry, prompt).value, service.retry))
  {
    var p := AddToolsToPrompt(service.registry, prompt).value;
    assert forall j :: 0 <= j < |responses| ==>
      !FailedCall(service.registry, p, responses[j], server) && !Raised(service.registry, p, responses[j], server);
    forall m | 0 <= m <= |responses|
      ensures Attempts(responses, m) == m
    {
      AttemptsWithoutCalls(responses, m);
    }
    r := UpdateWithToolCall(service, prompt, responses, server);
  }

  /** A chat model that keeps proposing a refused call keeps the counter at zero: the budget
      never ends the loop, only running out of responses does. */
  method RefusedCallsNeverExhaust(service: Service, prompt: Builder, responses: seq<Response>, server: ToolServer)
    returns (r: Result<LoopExit>)
    requires service.retry > 0
    requires AddToolsToPrompt(service.registry, prompt).Success?
    requires Build(AddToolsToPrompt(service.registry, prompt).value).Success?
    requires forall j :: 0 <= j < |responses| ==>
      FailedCall(service.registry, AddToolsToPrompt(service.registry, prompt).value, responses[j], server)
    ensures r == Success(ResponsesRanOut(AddToolsToPrompt(service.registry, prompt).value, 0))
  {
    var p := AddToolsToPrompt(service.registry, prompt).value;
    assert forall j :: 0 <= j < |responses| ==> !NoCall(responses[j]);
    assert forall j :: 0 <= j < |responses| ==> Turn(service.registry, p, responses[j], server) == Refused;
    forall m | 0 <= m <= |responses|
      ensures Attempts(responses, m) == 0
    {
      AttemptsWithRefusals(service.registry, p, responses, m, server);
    }
    r := UpdateWithToolCall(service, prompt, responses, server);
  }

  /** With a budget of zero or less the loop never asks: the conversation comes back with
      only the tools added, whatever the responses and even when it does not build. */
  method ZeroBudgetNeverAsks(service: Service, prompt: Builder, responses: seq<Response>, server: ToolServer)
    returns (r: Result<LoopExit>)
    requires service.retry <= 0
    requires AddToolsToPrompt(service.registry, prompt).Success?
    ensures r == Success(RetriesExhausted(AddToolsToPrompt(service.registry, prompt).value, 0))
  {
    r := UpdateWithToolCall(service, prompt, responses, server);
  }

  /** When the conversation with the tools does not build, the first query raises that
      error before the chat model is asked, whatever it would have answered. */
  method UnbuildableToolsRaise(service: Service, prompt: Builder, responses: seq<Response>, server: ToolServer)
    returns (r: Result<LoopExit>)
    requires service.retry > 0
    requires AddToolsToPrompt(service.registry, prompt).Success?
    requires Build(AddToolsToPrompt(service.registry, prompt).value).Failure?
    ensures r == Failure(Build(AddToolsToPrompt(service.registry, prompt).value).error)
  {
    r := UpdateWithToolCall(service, prompt, responses, server);
  }

  /** A tool whose `required` list holds a number: with no servers registered, the first
      query fails the cast of that list, so the loop raises instead of asking. */
  method NonStringRequiredRaises(retry: int, responses: seq<Response>, server: ToolServer)
    returns (r: Result<LoopExit>)
    requires retry > 0
    ensures r == Failure(RequiredNotString)
  {
    var items := [JNum(1)];
    var d := ToolDefinition("t", "", map["required" := JArr(items)]);
    var prompt := Builder([], [d]);
    assert !StringOrNullEntries(items) by { assert !items[0].JStr? && !items[0].JNull?; }
    assert ToolDefinitionToChatTool(d).Failure?;
    assert ChatTools(prompt.toolDefinitions).Failure?;
    r := UpdateWithToolCall(Service([], retry), prompt, responses, server);
  }
}

=== FILE: transport.dfy ===
/**
  The two ways of reaching a tool server: a child process wired through its
  standard streams (`Stdio`) or a Server-Sent-Events HTTP stream (`Sse`).

  A transport is a value: its kind, the "set once" cell holding the channel,
  the child process (Stdio only), a counter that names freshly created
  channels and processes, and the trace of observable effects (process
  start/destroy, channel open/close, HTTP client close).
 */
module Transport {
  import opened Wrappers

  /** The launcher for any suffix that is not js, py or jar: ONE command element. */
  const DockerFallback := "docker run -i --rm"

  /** Kotlin's `substringAfterLast(delim)`: the text after the last `delim`, or all of `s`. */
  function SubstringAfterLast(s: string, delim: char): (r: string)
    ensures delim !in r
    ensures |r| <= |s| && r == s[|s| - |r|..]
    ensures |r| < |s| ==> s[|s| - |r| - 1] == delim
    ensures |r| == |s| <==> delim !in s
    decreases |s|
  {
    if |s| == 0 then ""
    else if s[|s| - 1] == delim then ""
    else SubstringAfterLast(s[..|s| - 1], delim) + [s[|s| - 1]]
  }

  /** The launch command of a Stdio server: a runtime chosen by suffix, then the path. */
  function Command(path: string, isWindows: bool): (cmd: seq<string>)
    ensures 2 <= |cmd| <= 3 && cmd[|cmd| - 1] == path
    ensures cmd[0] == "node" <==> SubstringAfterLast(path, '.') == "js"
    ensures cmd[0] in {"python", "python3"} <==> SubstringAfterLast(path, '.') == "py"
    ensures cmd[0] == "java" <==> SubstringAfterLast(path, '.') == "jar"
    ensures |cmd| == 3 <==> SubstringAfterLast(path, '.') == "jar"
    ensures cmd[0] == DockerFallback <==> SubstringAfterLast(path, '.') !in {"js", "py", "jar"}
    ensures SubstringAfterLast(path, '.') == "py" ==> cmd[0] == (if isWindows then "python" else "python3")
    ensures SubstringAfterLast(path, '.') == "jar" ==> cmd[..2] == ["java", "-jar"]
  {
    var runtime :=
      match SubstringAfterLast(path, '.')
      case "js" => ["node"]
      case "py" => [if isWindows then "python" else "python3"]
      case "jar" => ["java", "-jar"]
      case _ => [DockerFallback];
    runtime + [path]
  }

  datatype Kind = Stdio(command: seq<string>) | Sse(url: string)

  /** The underlying protocol transport object; `id` tells instances apart. */
  datatype Channel = Channel(id: nat)

  datatype Event =
    | ProcessStarted(pid: nat)
    | ProcessDestroyed(pid: nat)
    | ChannelOpened(channel: Channel)
    | ChannelClosed(channel: Channel)
    | HttpClientClosed

  datatype State = State(kind: Kind, cell: Option<Channel>, process: Option<nat>, nextId: nat, trace: seq<Event>)

  /** What every reachable transport satisfies: a Stdio process exists exactly when the
      channel is stored (the two are set together), an Sse transport has no process,
      and the stored channel was created by this transport. */
  predicate Valid(s: State) {
    && (s.kind.Stdio? ==> (s.cell.Some? <==> s.process.Some?))
    && (s.kind.Sse? ==> s.process.None?)
    && (s.cell.Some? ==> s.cell.value.id < s.nextId)
  }

  function NewStdio(path: string, isWindows: bool): (s: State)
    ensures Valid(s) && s.cell.None? && s.process.None? && s.trace == []
    ensures s.kind == Stdio(Command(path, isWindows))
  {
    State(Stdio(Command(path, isWindows)), None, None, 0, [])
  }

  function NewSse(url: string): (s: State)
    ensures Valid(s) && s.cell.None? && s.trace == [] && s.kind == Sse(url)
  {
    State(Sse(url), None, None, 0, [])
  }

  /** The strict setter: refuses to overwrite a stored channel. */
  function SetTransport(s: State, v: Channel): (r: Result<State>)
    ensures r.Failure? <==> s.cell.Some?
    ensures r.Failure? ==> r.error == TransportAlreadyInitialized
    ensures r.Success? ==> r.value.cell == Some(v)
    ensures r.Success? ==> r.value.kind == s.kind && r.value.process == s.process
    ensures r.Success? ==> r.value.nextId == s.nextId && r.value.trace == s.trace
  {
    if s.cell.Some? then Failure(TransportAlreadyInitialized)
    else Success(s.(cell := Some(v)))
  }

  /** Whether the operating system starts a process for a command line:
      `ProcessBuilder(command).start()` raises when it does not. */
  type Launcher = seq<string> -> bool

  /** `init()`: Stdio starts a process only when none exists and is then a no-op;
      Sse always creates a channel and stores it strictly. */
  function Init(s: State, launch: Launcher): (r: Result<(State, Channel)>)
    requires Valid(s)
    ensures r.Success? ==> Valid(r.value.0) && r.value.0.cell == Some(r.value.1)
    ensures r.Success? ==> r.value.0.kind == s.kind && s.trace <= r.value.0.trace
    ensures s.cell.Some? && r.Success? ==> r.value.0.cell == s.cell
    ensures s.cell.None? && r.Success? ==> r.value.1.id >= s.nextId
    ensures s.kind.Stdio? ==> (r.Failure? <==> s.process.None? && !launch(s.kind.command))
    ensures s.kind.Stdio? && r.Failure? ==> r.error == ProcessStartFailed
    ensures s.kind.Stdio? && s.cell.Some? ==> r == Success((s, s.cell.value))
    ensures s.kind.Sse? ==> (r.Failure? <==> s.cell.Some?)
    ensures s.kind.Sse? && s.cell.Some? ==> r == Failure(TransportAlreadyInitialized)
    ensures s.kind.Stdio? && s.cell.None? && r.Success? ==>
      r.value.0.process.Some? && r.value.0.trace == s.trace + [ProcessStarted(r.value.0.process.value), ChannelOpened(r.value.1)]
    ensures s.kind.Sse? && r.Success? ==> r.value.0.trace == s.trace + [ChannelOpened(r.value.1)]
  {
    match s.kind
    case Stdio(command) =>
      if s.process.None? then
        if !launch(command) then Failure(ProcessStartFailed)
        else
          var pid := s.nextId;
          var ch := Channel(s.nextId + 1);
          var started := s.(process := Some(pid), nextId := s.nextId + 2,
                            trace := s.trace + [ProcessStarted(pid), ChannelOpened(ch)]);
          Success((SetTransport(started, ch).value, ch))
      else
        Success((s, s.cell.value))
    case Sse(_) =>
      var ch := Channel(s.nextId);
      var stored :- SetTransport(s.(nextId := s.nextId + 1, trace := s.trace + [ChannelOpened(ch)]), ch);
      Success((stored, ch))
  }

  /** The `transport` getter: the stored channel, or `init()` when there is none. */
  function Get(s: State, launch: Launcher): (r: Result<(State, Channel)>)
    requires Valid(s)
    ensures r.Failure? <==> s.cell.None? && s.kind.Stdio? && !launch(s.kind.command)
    ensures r.Failure? ==> r.error == ProcessStartFailed
    ensures r.Success? ==>
      Valid(r.value.0) && r.value.0.cell == Some(r.value.1) && r.value.0.kind == s.kind && s.trace <= r.value.0.trace
    ensures s.cell.Some? ==> r == Success((s, s.cell.value))
    ensures s.cell.None? && r.Success? ==> r.value.1.id >= s.nextId
  {
    if s.cell.Some? then Success((s, s.cell.value)) else Init(s, launch)
  }

  /** `close()`: Stdio destroys its process (if any) and then closes the channel; Sse closes
      the channel and then the HTTP client. Both reach the channel through the getter, so
      closing a Stdio transport that never started tries to start it. */
  function Close(s: State, launch: Launcher): (r: Result<State>)
    requires Valid(s)
    ensures r.Failure? <==> s.cell.None? && s.kind.Stdio? && !launch(s.kind.command)
    ensures r.Failure? ==> r.error == ProcessStartFailed
    ensures r.Success? ==> Valid(r.value) && r.value.kind == s.kind && r.value.cell.Some? && s.trace <= r.value.trace
    ensures s.cell.Some? ==> r.Success? && r.value.cell == s.cell
    ensures s.kind.Stdio? && s.cell.Some? ==>
      r.value.trace == s.trace + [ProcessDestroyed(s.process.value), ChannelClosed(s.cell.value)]
    ensures s.kind.Sse? && s.cell.Some? ==>
      r.value.trace == s.trace + [ChannelClosed(s.cell.value), HttpClientClosed]
    ensures s.kind.Stdio? && r.Success? ==>
      |r.value.trace| > |s.trace| && r.value.trace[|r.value.trace| - 1] == ChannelClosed(r.value.cell.value)
    ensures s.kind.Sse? ==> r.Success?
    ensures s.kind.Sse? && r.Success? ==>
      |r.value.trace| >= |s.trace| + 2 && r.value.trace[|r.value.trace| - 2..] == [ChannelClosed(r.value.cell.value), HttpClientClosed]
  {
    match s.kind
    case Stdio(_) =>
      var destroyed := if s.process.Some? then s.(trace := s.trace + [ProcessDestroyed(s.process.value)]) else s;
      var got :- Get(destroyed, launch);
      Success(got.0.(trace := got.0.trace + [ChannelClosed(got.1)]))
    case Sse(_) =>
      var got := Get(s, launch).value;
      Success(got.0.(trace := got.0.trace + [ChannelClosed(got.1), HttpClientClosed]))
  }

  /** Repeated Stdio `init()` calls return the same channel and change nothing; only the
      first one asks the operating system to start the process. */
  lemma StdioInitIdempotent(s: State, launch: Launcher, launch': Launcher)
    requires Valid(s) && s.kind.Stdio? && Init(s, launch).Success?
    ensures Init(Init(s, launch).value.0, launch') == Success(Init(s, launch).value)
  {
  }

  /** A second Sse `init()` fails with "already initialized". */
  lemma SseSecondInitFails(s: State, launch: Launcher)
    requires Valid(s) && s.kind.Sse?
    ensures Init(s, launch).Success? <==> s.cell.None?
    ensures Init(s, launch).Success? ==> Init(Init(s, launch).value.0, launch) == Failure(TransportAlreadyInitialized)
  {
  }

  /** Mixing disciplines on Sse: once the lazy getter has created the channel, the strict
      `init()` fails; on Stdio it returns the getter's channel. */
  lemma GetThenInit(s: State, launch: Launcher)
    requires Valid(s) && Get(s, launch).Success?
    ensures s.kind.Sse? ==> Init(Get(s, launch).value.0, launch) == Failure(TransportAlreadyInitialized)
    ensures s.kind.Stdio? ==> Init(Get(s, launch).value.0, launch) == Get(s, launch)
  {
  }

  /** The lazy getter is memoised: asking twice gives the same channel and state. */
  lemma GetMemoised(s: State, launch: Launcher)
    requires Valid(s) && Get(s, launch).Success?
    ensures Get(Get(s, launch).value.0, launch) == Get(s, launch)
  {
  }

  /** Once a channel is stored, no operation replaces it and none can fail to start. */
  lemma StoredChannelNeverChanges(s: State, v: Channel, launch: Launcher)
    requires Valid(s) && s.cell == Some(v)
    ensures SetTransport(s, v).Failure?
    ensures Init(s, launch).Success? ==> Init(s, launch).value.0.cell == Some(v) && Init(s, launch).value.1 == v
    ensures Get(s, launch) == Success((s, v))
    ensures Close(s, launch).Success? && Close(s, launch).value.cell == Some(v)
  {
  }

  /** Closing a Stdio transport that was never initialised goes through the getter: it
      starts a process and opens a channel only to close it, and the new process is not
      destroyed (the destroy step ran before the process existed). When the process does
      not start, `close()` raises. */
  lemma CloseUninitialisedStdio(s: State, launch: Launcher)
    requires Valid(s) && s.kind.Stdio? && s.cell.None?
    ensures Close(s, launch).Failure? <==> !launch(s.kind.command)
    ensures Close(s, launch).Success? ==>
      var r := Close(s, launch).value;
      r.process.Some? &&
      r.trace == s.trace + [ProcessStarted(r.process.value), ChannelOpened(r.cell.value), ChannelClosed(r.cell.value)] &&
      ProcessDestroyed(r.process.value) !in r.trace[|s.trace|..]
  {
  }

  /** The suffix of `stem.ext` is `ext` whenever `ext` has no dot. */
  lemma SuffixAfterDot(stem: string, ext: string)
    requires '.' !in ext
    ensures SubstringAfterLast(stem + "." + ext, '.') == ext
  {
    var s := stem + "." + ext;
    var r := SubstringAfterLast(s, '.');
    assert s[|stem|] == '.';
    assert r == s[|s| - |ext|..] == ext;
  }

  /** The launcher table on concrete paths, including the server the tests start. */
  lemma CommandForScript()
    ensures Command("C:\\mcp\\stdio_server.js", false) == ["node", "C:\\mcp\\stdio_server.js"]
  {
    SuffixAfterDot("C:\\mcp\\stdio_server", "js");
    assert "C:\\mcp\\stdio_server" + "." + "js" == "C:\\mcp\\stdio_server.js";
  }

  lemma CommandForPython()
    ensures Command("a.b.py", true) == ["python", "a.b.py"]
    ensures Command("a.b.py", false) == ["python3", "a.b.py"]
  {
    SuffixAfterDot("a.b", "py");
    assert "a.b" + "." + "py" == "a.b.py";
  }

  lemma CommandForJar()
    ensures Command("tools.jar", false) == ["java", "-jar", "tools.jar"]
  {
    SuffixAfterDot("tools", "jar");
    assert "tools" + "." + "jar" == "tools.jar";
  }

  /** Only the text after the LAST dot counts: `a.tar.gz` has suffix `gz`. */
  lemma CommandFallback()
    ensures Command("a.tar.gz", false) == [DockerFallback, "a.tar.gz"]
  {
    SuffixAfterDot("a.tar", "gz");
    assert "a.tar" + "." + "gz" == "a.tar.gz";
  }

  /** A name without a dot is its own suffix, so an image name gets the docker launcher. */
  lemma CommandWithoutDot(image: string)
    requires '.' !in image && image !in {"js", "py", "jar"}
    ensures |Command(image, false)| == 2
    ensures Command(image, false)[0] == DockerFallback && Command(image, false)[1] == image
  {
    SuffixWithoutDot(image);
  }

  /** An operating system that looks the first command element up as a program name, as
      `ProcessBuilder` does on POSIX systems. */
  function ProgramLauncher(programs: set<string>): Launcher {
    (cmd: seq<string>) => |cmd| > 0 && cmd[0] in programs
  }

  /** The fallback launcher is ONE command element, spaces included, so a system whose
      program names hold no space cannot start it: every server path without a js, py or
      jar suffix fails at the first `init()`. */
  lemma FallbackNeverStarts(path: string, isWindows: bool, programs: set<string>)
    ensures SubstringAfterLast(path, '.') !in {"js", "py", "jar"} && (forall p :: p in programs ==> ' ' !in p) ==>
      Init(NewStdio(path, isWindows), ProgramLauncher(programs)) == Failure(ProcessStartFailed)
  {
  }

  lemma SuffixWithoutDot(s: string)
    requires '.' !in s
    ensures SubstringAfterLast(s, '.') == s
  {
    var suffix := SubstringAfterLast(s, '.');
    assert suffix == s[|s| - |suffix|..] && |suffix| == |s|;
  }
}

=== FILE: wrappers.dfy ===
/**
  Failure-compatible wrappers shared by every module of the model, and the
  single error taxonomy of the tool-calling client.
 */
module Wrappers {

  /** Kotlin's nullable values: `None` stands for `null`. */
  datatype Option<+T> = None | Some(value: T) {
    /** The `?:` elvis operator. */
    function GetOr(default: T): T {
      match this
      case Some(v) => v
      case None => default
    }
  }

  /** A value or the exception that replaced it; usable with `:-`. */
  datatype Result<+T> = Success(value: T) | Failure(error: Error) {
    predicate IsFailure() {
      Failure?
    }

    function PropagateFailure<U>(): Result<U>
      requires Failure?
    {
      Failure(error)
    }

    function Extract(): T
      requires Success?
    {
      value
    }
  }

  /** Every exception the core raises or lets through. */
  datatype Error =
    | TransportAlreadyInitialized  // second strict `setTransport`
    | ProcessStartFailed           // `ProcessBuilder.start()` could not start the server
    | HandshakeFailed              // the protocol handshake in `connect` raised
    | EmptyServer                  // no tools, prompts or resources after `connect`
    | MissingRequired              // `!!` on an absent "required" additional property
    | NotTextContent               // a content part that is not `TextContent`
    | RequiredNotString            // an element of "required" that is not a `String`
    | ModelQueryFailed             // the chat model call raised
    | NoChoices                    // `choices.first()` on an empty list
    | ToolInvocationFailed         // the call-tool RPC raised
}
